=== FILE: README.md ===
# CustomClick menu overlay — a Dafny model

CustomClick is a browser extension that replaces the page's native
right-click menu with its own popup menu. This project models the content
script's menu-overlay logic and proves properties about it:

- **Edge clamp** (`Geometry`). `adjustMenuPosition` moves the requested
  top-left corner of a 320×200 panel back inside the scrolled viewport,
  with a padding of 10. It clamps the right and bottom edges first, then
  the left and top edges. The window's size and scroll offsets are
  parameters.
- **Menu contents** (`MenuModel`). Sections hold items. The item list is
  flattened, and the disabled items are filtered out to give the list
  that keyboard navigation uses. JavaScript's `findIndex` looks items up
  by id. The render loop's running counter supplies `aria-posinset`.
- **Keyboard focus** (`Navigation`, `KeyEffects`, `MenuContainer`,
  `HybridMenu`, `MenuItem`). The arrow keys wrap around, Home and End
  jump to the ends, and a letter moves focus to the next matching item
  (typeahead). Enter and Space activate an item. The component container
  (`components/MenuContainer.tsx`) and the inline copy in `hybrid.tsx`
  handle keys differently, and each is modelled separately. The focused
  index is a JavaScript number, so it can become NaN when it is computed
  modulo an empty list.
- **Open/close lifecycle** (`Lifecycle`, `VanillaManager`,
  `ReactManager`, `HybridInit`, `WorkingScript`). These are small state
  machines. Their state is whether a menu is present plus the set of
  attached document listeners. The `setTimeout(…, 0)` that attaches the
  listeners later is an explicit `Tick` event, and a counter records how
  many of these deferred attachments are still pending. Shift+right-click
  bypasses the custom menu, and scroll and resize close it. In the React
  mode that ships, the rendered menu closes itself through `onClose` on an
  outside click, an item click, Escape, and Enter or Space.

Everything is pure functions over immutable values, except the render
loop, which is a method with loop invariants.

### Behaviour of the code worth knowing

- The clamp adds the scroll offset. The caller, however, passes the
  pointer's viewport-relative `clientX/clientY` and positions the panel
  with `position: fixed`. On a page scrolled right by at least one
  viewport width, the panel starts beyond the visible area
  (`Geometry.ScrolledPageMovesMenuOffscreen`).
- The padding is kept only on the left and top sides. A request that
  just fits is not moved, so the far edge can touch the viewport's edge
  (`Geometry.AdjustContained`).
- The component container's typeahead does not call `preventDefault`.
  The inline container has no typeahead at all.
- With no enabled item, the arrow keys compute `% 0`, which gives NaN.
  End gives −1. Neither key is a no-op.
- Suppose the menu is hidden before the deferred listener attachment
  runs, for example by a scroll. The listeners are still attached
  afterwards, with no menu present (`VanillaManager.LateAttachLeaks`,
  `WorkingScript.LateAttachLeaks`). Listeners are a set, so they never
  accumulate beyond the two, and they are always both attached or both
  detached. Once every pending attachment has run, an open menu has both
  listeners, and closing an open menu detaches both. Leaked listeners
  close the next menu on its first outside click, before that menu's own
  attachment has run (`VanillaManager.LeakedListenersCloseNextMenu`).
- In the shipped React menu, the same inline `handleKeyDown` is attached to
  the container (`hybrid.tsx:139`) and to every item (`hybrid.tsx:169`).
  DOM focus moves to an item after Tab, which reaches the item with
  `tabIndex` 0 (`hybrid.tsx:159`), or after a click on the disabled Paste
  entry, whose div has `tabIndex` −1 and still takes focus. From then on,
  each key runs the handler twice: once on the item and again when the
  event bubbles to the container. ArrowDown then moves two entries, and
  Enter runs the action and `onClose` twice. So the exactly-once results
  of `HybridMenu.HybridKeyDown` and `HybridInit.ShippedMenuEnterCloses`
  hold for each call of the handler, not for each key press.

## Model

| member | source | states |
|---|---|---|
| Geometry.ClampAxis | src/content/components/MenuContainer.tsx:183-204 | the result is never left of / above scroll+10; a request that fits is unchanged; an overflowing one becomes max(extent+scroll−size−10, scroll+10); one before the near edge becomes scroll+10 |
| Geometry.AdjustMenuPosition | src/content/hybrid.tsx:186-220 | both coordinates are at least scroll+10; a coordinate that fits on its own axis is returned unchanged, so a request that fits is; right/bottom overflow gives max(vw+sx−330, sx+10) and max(vh+sy−210, sy+10) |
| Geometry.AdjustIdempotent | src/content/components/MenuContainer.tsx:173-207 | clamping a clamped position changes nothing |
| Geometry.ClampAxisIdempotent | src/content/components/MenuContainer.tsx:186-204 | each axis of the clamp is a fixed point on its own output |
| Geometry.AdjustContained | src/content/components/MenuContainer.tsx:186-194 | for vw ≥ 330 the panel's right edge x+320 stays within vw+sx; for vh ≥ 210 its bottom stays within vh+sy |
| Geometry.NarrowViewportPinsLeft | src/content/hybrid.tsx:199-212 | because the left clamp runs after the right clamp, a viewport narrower than 330 puts x at scrollX+10 for any request |
| Geometry.ShortViewportPinsTop | src/content/hybrid.tsx:204-217 | a viewport shorter than 210 puts y at scrollY+10 |
| Geometry.ScrolledPageMovesMenuOffscreen | src/content/hybrid.tsx:191-212 | with scrollX ≥ viewport width the clamped x exceeds the viewport width, so the fixed-positioned panel starts off screen |
| Geometry.RightEdgeScenario | src/content/components/MenuContainer.tsx:187-189 | a right-click at (1900, 50) on an unscrolled 1920×1080 viewport is placed at (1590, 50) |
| MenuModel.Flatten | src/content/components/MenuContainer.tsx:30 | a single section flattens to exactly its own items (concatenation and membership are stated by the two lemmas below) |
| MenuModel.Focusable | src/content/components/MenuContainer.tsx:31 | the filtered list is never longer than its input, and as long exactly when no item is disabled |
| MenuModel.FlattenMembers | src/content/components/MenuContainer.tsx:30 | an item is in the flattened list exactly when some section holds it |
| MenuModel.FlattenAppend | src/content/components/MenuContainer.tsx:30 | flattening distributes over concatenation of section lists, so section order is kept |
| MenuModel.FocusableMembers | src/content/components/MenuContainer.tsx:31 | the focusable list holds exactly the enabled items |
| MenuModel.FocusableAppend | src/content/components/MenuContainer.tsx:31 | filtering distributes over concatenation, so relative order is kept |
| MenuModel.FocusableExtremes | src/content/components/MenuContainer.tsx:31 | an all-disabled list filters to empty; an all-enabled list is kept whole |
| MenuModel.FindIndex | src/content/components/MenuContainer.tsx:147-149 | returns −1 exactly when no entry has the id, otherwise the first position with that id |
| MenuModel.EnabledBeforeStep | src/content/components/MenuContainer.tsx:151-153 | the counter advances by one on an enabled item and not on a disabled one |
| MenuModel.EnabledPosition | src/content/components/MenuContainer.tsx:146-161 | an enabled item's counter value is a valid index of the focusable list and the entry there is that item |
| MenuModel.EnabledBeforeMonotone | src/content/components/MenuContainer.tsx:150-153 | the counter never decreases along the list |
| MenuModel.EnabledPositionsIncrease | src/content/components/MenuContainer.tsx:150-153 | later items get strictly larger counter values than an earlier enabled item |
| MenuModel.FocusableSource | src/content/components/MenuContainer.tsx:31 | every focusable entry comes from an enabled flat position whose counter equals its index |
| MenuModel.DisabledSharesNextPosition | src/content/components/MenuContainer.tsx:146-153 | a run of disabled items gets the counter value of the next enabled item |
| MenuModel.TrailingDisabledPosition | src/content/components/MenuContainer.tsx:146-161 | a disabled item after the last enabled one gets posinset = setsize + 1 |
| MenuModel.FindIndexMatchesCounter | src/content/components/MenuContainer.tsx:146-153 | with distinct ids, `findIndex` by id and the running counter agree for every enabled item |
| MenuModel.NoEarlierSameId | src/content/components/MenuContainer.tsx:147-149 | with distinct ids, no focusable entry before an item's position has its id |
| Navigation.JsRem | src/content/components/MenuContainer.tsx:65 | `a % n` is NaN exactly when n = 0; otherwise its magnitude is below n, its sign is the dividend's, and a − result is a multiple of n |
| Navigation.ArrowDown | src/content/components/MenuContainer.tsx:63-66 | the result is NaN exactly when the index is NaN or the list is empty; from an index of −1 or more in a non-empty list it is a valid index |
| Navigation.ArrowUp | src/content/components/MenuContainer.tsx:68-71 | the result is NaN exactly when the index is NaN or the list is empty; from an index of 1−n or more it is a valid index |
| Navigation.Home | src/content/components/MenuContainer.tsx:73-76 | the result is valid exactly when the list is not empty, and it is the entry ArrowUp moves from to the last entry |
| Navigation.End | src/content/components/MenuContainer.tsx:78-81 | the result is valid exactly when the list is not empty; ArrowDown wraps from it to the first entry; an empty list gives −1 |
| Navigation.ArrowDownWraps | src/content/components/MenuContainer.tsx:63-66 | from a valid index, ArrowDown steps forward and wraps from the last entry to 0 |
| Navigation.ArrowUpWraps | src/content/components/MenuContainer.tsx:68-71 | from a valid index, ArrowUp steps back and wraps from 0 to the last entry |
| Navigation.ArrowsKeepRange | src/content/components/MenuContainer.tsx:63-71 | both arrows keep an index in [0, n) inside [0, n) |
| Navigation.ArrowsInverse | src/content/components/MenuContainer.tsx:63-71 | for n > 0 and an index in [0, n), ArrowUp undoes ArrowDown and vice versa |
| Navigation.ArrowDownTimesOffset | src/content/components/MenuContainer.tsx:63-66 | k ArrowDown presses from p give (p + k) mod n |
| Navigation.ArrowDownCycle | src/content/components/MenuContainer.tsx:63-66 | n ArrowDown presses return to the starting index |
| Navigation.EmptyListNavigation | src/content/components/MenuContainer.tsx:63-81 | with zero enabled items both arrows give NaN (undefined) and End gives −1 |
| Navigation.LowerAscii | src/content/components/MenuContainer.tsx:86 | an ASCII capital becomes its lower-case letter (code point + 32); every other character is unchanged |
| Navigation.StartsWithLetter | src/content/components/MenuContainer.tsx:93 | for a lower-case ASCII letter, the caption starts with that letter or with its capital |
| Navigation.IsTypeaheadKey | src/content/components/MenuContainer.tsx:85-86 | a typeahead key is one character that lower-cases to an ASCII letter in a–z, and no named key (Escape, Enter, Space, Home, End) is one |
| Navigation.Probe | src/content/components/MenuContainer.tsx:91 | the probed index is below the length; before the end it is current + offset, past it the offset wraps once to current + offset − length |
| Navigation.FirstMatch | src/content/components/MenuContainer.tsx:90-97 | the scan returns the smallest offset in [k, n) whose probed item starts with the letter, or None when no offset matches |
| Navigation.Typeahead | src/content/components/MenuContainer.tsx:83-99 | only a single ASCII letter can move focus; a move lands on the first item in wrapped scan order from offset 1 whose caption starts with the letter, ignoring case; from a valid index, focus stays exactly when no other item matches |
| Navigation.NeverReselects | src/content/components/MenuContainer.tsx:90-91 | no scanned offset in 1..n−1 probes the current index |
| KeyEffects.NavigationKeyDown | src/content/components/MenuContainer.tsx:57-81 | Escape, the arrows, Home and End prevent the default; Escape alone closes; the arrows give `ArrowDown`/`ArrowUp` of the index; Home gives 0 and End gives n−1; a valid index stays valid; other keys change nothing |
| MenuContainer.ContainerKeyDown | src/content/components/MenuContainer.tsx:56-101 | this container never activates an item; only Escape closes; the arrows, Home and End move the index as the shared keys do; letters run the typeahead without preventing the default; other keys change nothing |
| MenuContainer.RenderItems | src/content/components/MenuContainer.tsx:124-168 | the nested section/item loop with a running counter yields, for every flat position, the id, posinset = enabled-before + 1, setsize = focusable count, the findIndex focus flag and the tabIndex |
| MenuContainer.RenderSection | src/content/components/MenuContainer.tsx:145-165 | one section's items append their views in order and advance the counter by that section's enabled count |
| MenuContainer.FlattenSplit | src/content/components/MenuContainer.tsx:142-145 | the flattened list is the earlier sections, then this section's items, then the later sections |
| MenuContainer.IsFocusedInMeaning | src/content/components/MenuContainer.tsx:146-148 | the focus test holds exactly when the item is enabled and the focus names the first focusable entry with its id, or the focus is −1 and no entry has that id |
| MenuContainer.FocusedIffPosition | src/content/components/MenuContainer.tsx:146-149 | with distinct ids an item is focused exactly when it is enabled and focusedIndex = posinset − 1; tabIndex is 0 exactly when focused |
| MenuContainer.PositionOfEnabled | src/content/components/MenuContainer.tsx:160-161 | an enabled item's posinset is in [1, setsize] and names its own entry of the focusable list |
| MenuContainer.PositionOfDisabled | src/content/components/MenuContainer.tsx:150-160 | a disabled item announces the posinset of the next enabled item |
| MenuContainer.AtMostOneFocused | src/content/components/MenuContainer.tsx:146-149 | with distinct ids no two items are focused at once |
| MenuContainer.SomeItemFocused | src/content/components/MenuContainer.tsx:146-149 | with distinct ids and a valid focused index, some item is focused |
| MenuContainer.DuplicateIdsBothFocused | src/content/components/MenuContainer.tsx:147-149 | two enabled items with the same id are both marked focused, since only the first id match is consulted |
| MenuContainer.ComponentEnterActivatesOnce | src/content/components/MenuItem.tsx:34-44 | Enter on an enabled component item: the container's handler leaves the focus alone, then the item calls preventDefault and onClick once |
| MenuContainer.TypeaheadExample | src/content/components/MenuContainer.tsx:83-99 | with Search, Copy, Translate, Custom Action: "c" from Search goes to Copy, "c" again wraps past Translate to Custom Action |
| MenuContainer.DisabledExclusionExample | src/content/components/MenuContainer.tsx:30-31 | for one section [A enabled, B disabled] the navigable list is [A] and ArrowDown from A stays on A |
| MenuItem.IsActivationKey | src/content/components/MenuItem.tsx:40 | Space is the only one-character activation key, and Escape is never one |
| MenuItem.TabIndex | src/content/components/MenuItem.tsx:50 | tabIndex is 0 exactly when focused is true, otherwise −1 |
| MenuItem.HandleClick | src/content/components/MenuItem.tsx:28-32 | a disabled item never calls onClick; an enabled one calls it exactly once |
| MenuItem.HandleKeyDown | src/content/components/MenuItem.tsx:34-44 | the parent handler, when supplied, is called first and once for every key; onClick and preventDefault run once exactly for Enter/Space on an enabled item, preventDefault before onClick |
| MenuItem.AbsentPropsMeanFalse | src/content/components/MenuItem.tsx:21-24 | leaving out `disabled` or `focused` behaves like passing false |
| HybridMenu.HybridKeyDown | src/content/hybrid.tsx:65-100 | Enter/Space prevent the default and activate focusableItems[focusedIndex] exactly when that entry exists; the arrows, Home and End move the index as the shared keys do; other keys never activate; a valid index stays valid; keys other than the navigation keys leave the focus |
| HybridMenu.ClickHandler | src/content/hybrid.tsx:168 | an item has a click handler exactly when it is enabled, and the handler is that item's own |
| HybridMenu.ClickGuardsAgree | src/content/hybrid.tsx:168 | the inline variant attaches a handler exactly when the component's click guard would call onClick |
| HybridMenu.NoTypeahead | src/content/hybrid.tsx:65-100 | in this variant a letter key changes nothing |
| HybridMenu.EnterActivatesFocusedExample | src/content/hybrid.tsx:92-97 | Enter on entry 2 of 4 enabled entries activates that entry and nothing else |
| Lifecycle.ContextMenuCalls | src/content/hybrid.tsx:526-536 | with Shift nothing is called; otherwise preventDefault, then stopPropagation, then show at the raw client coordinates |
| VanillaManager.Hide | src/content/hybrid.tsx:417-424 | without a menu nothing changes; otherwise the menu is dropped and no listener remains |
| VanillaManager.Show | src/content/hybrid.tsx:388-415 | the single current menu is the new one at (x, y); a previously open menu's listeners are detached; one more deferred attachment is pending |
| VanillaManager.AttachListeners | src/content/hybrid.tsx:411-414 | a deferred attachment adds both listeners whether or not a menu is open, and leaves the menu alone |
| VanillaManager.HandleOutsideClick | src/content/hybrid.tsx:426-430 | the menu closes exactly when one is open and the target lies outside it, and then both listeners are detached; otherwise nothing changes |
| VanillaManager.HandleEscapeKey | src/content/hybrid.tsx:432-436 | Escape hides; every other key leaves the state unchanged |
| VanillaManager.InitialInvariant | src/content/hybrid.tsx:323-324 | the fresh manager satisfies the listener invariant: both listeners or neither, and both once an open menu has no attachment pending |
| VanillaManager.ShowPreservesInvariant | src/content/hybrid.tsx:388-415 | show keeps "both listeners or neither" and "open with no pending attachment implies both listeners" |
| VanillaManager.HidePreservesInvariant | src/content/hybrid.tsx:417-424 | hide keeps the invariant and leaves no menu |
| VanillaManager.OwnEventPreservesInvariant | src/content/hybrid.tsx:397-436 | document clicks, keys, item clicks and deferred attachments keep the invariant |
| VanillaManager.OnOwnEvent | src/content/hybrid.tsx:397-436 | a document click or key does nothing while its listener is detached and runs the handler while attached; an item click always closes the menu; a deferred attachment runs `AttachListeners` |
| VanillaManager.LateAttachLeaks | src/content/hybrid.tsx:411-422 | show, then hide before the attachment runs, then the attachment: no menu, yet both listeners attached |
| VanillaManager.NothingClosesBeforeTick | src/content/hybrid.tsx:388-414 | a menu opened with no stray listener attached (a fresh page, or one replacing an open menu) has no listener and one more pending attachment, so every document click and key leaves it unchanged until the next deferred attachment runs, which is its own only when none was pending before |
| VanillaManager.StaleAttachClosesEarly | src/content/hybrid.tsx:388-430 | show, hide before the attachment, show again: two attachments are pending, the earlier one attaches the listeners, and an outside click then closes the new menu while its own attachment is still pending |
| VanillaManager.LeakedListenersCloseNextMenu | src/content/hybrid.tsx:411-430 | after the leak, the next menu is closed by an outside click or Escape while its own attachment is still pending |
| ReactManager.Show | src/content/hybrid.tsx:474-478 | show stores the position and makes the menu visible |
| ReactManager.Hide | src/content/hybrid.tsx:480-483 | hide makes the menu invisible and keeps the position |
| ReactManager.RenderedAt | src/content/hybrid.tsx:116-121 | a menu is drawn exactly when visible, at a clamped point at least scroll+10, and at the stored position when that fits |
| ReactManager.HideThenShow | src/content/hybrid.tsx:474-483 | hiding is idempotent, a hidden menu is drawn in no viewport, and showing after hiding forgets the kept position |
| HybridInit.InitialManager | src/content/hybrid.tsx:499-511 | the mode picks the manager; either starts closed |
| HybridInit.ShippedItemsValue | src/content/hybrid.tsx:223-298 | the shipped menu's navigable list is Search, Translate, Copy, AI Assistant, Custom Action: every item but the disabled Paste, in display order |
| HybridInit.ReactOwnEvent | src/content/hybrid.tsx:65-114 | while hidden nothing happens; an open React menu closes on an outside click, an item click, Escape, or Enter/Space when the focused index names an entry; other keys move the focus as the inline handler does and leave it open; inside clicks and ticks change nothing |
| HybridInit.ShowOn | src/content/hybrid.tsx:536 | `menuManager.show` opens the menu in either mode, as the manager's own show does; a hidden React menu is mounted afresh (`CustomClickMenu` renders nothing while hidden, :309) and starts at the first entry, a visible one keeps its focus |
| HybridInit.HideOn | src/content/hybrid.tsx:549-556 | `menuManager.hide` closes the menu in either mode, as the manager's own hide does, leaving the React focus as it was |
| HybridInit.Step | src/content/hybrid.tsx:521-556 | Shift+right-click leaves the manager unchanged; any other right-click opens the menu; scroll and resize close it; an open React menu closes on an outside click or Escape; the mode never changes |
| HybridInit.RightClickShowsAtPointer | src/content/hybrid.tsx:526-536 | a right-click without Shift shows the menu at (clientX, clientY) |
| HybridInit.ReactMenuDrawnAtClampedPointer | src/content/hybrid.tsx:536 | in React mode the menu is drawn at the clamp of the raw client coordinates |
| HybridInit.InitialInvariant | src/content/hybrid.tsx:499-511 | either freshly made manager satisfies the invariant |
| HybridInit.StepPreservesInvariant | src/content/hybrid.tsx:56-114 | one event keeps the vanilla listener invariant, or keeps an open React menu's focused index inside the shipped list (reset to 0 on mount, kept in range by the keys) |
| HybridInit.RunPreservesInvariant | src/content/hybrid.tsx:514-556 | every event sequence keeps that invariant and the mode |
| HybridInit.ReactClosingEvents | src/content/hybrid.tsx:65-114 | an open React menu closes on an outside click, an item click, Escape, Enter, Space, scroll and resize |
| HybridInit.ReactNavigationKeepsMenuOpen | src/content/hybrid.tsx:72-90 | the arrows, Home and End keep an open React menu open, its position unchanged, and its focus inside the shipped list |
| HybridInit.ShippedMenuEnterCloses | src/content/hybrid.tsx:92-97 | in the shipped mode, after any events, Enter closes an open menu, because the focused entry always exists and every action calls `onClose` |
| HybridInit.ShippedMenuReopensAtFirstEntry | src/content/hybrid.tsx:56-62 | in the shipped mode, after any events, a right-click on a closed menu opens it with focus on the first entry |
| HybridInit.ShippedEnterThenReopen | src/content/hybrid.tsx:56-97 | in the shipped mode, Enter closes an open menu and the next right-click reopens it at the first entry |
| HybridInit.VanillaClosingEvents | src/content/hybrid.tsx:426-436 | with listeners attached, an outside click, Escape, an item click, scroll or resize closes the menu and detaches both listeners |
| HybridInit.VanillaIgnoredEvents | src/content/hybrid.tsx:426-436 | a non-Escape key or a click inside the menu changes nothing |
| WorkingScript.HideMenu | src/content/working.js:98-105 | without a menu nothing changes; otherwise the first menu element is removed and no listener remains |
| WorkingScript.ShowMenu | src/content/working.js:68-95 | with at most one menu before, exactly the new menu at (x, y) exists after; an existing menu's listeners are detached; one attachment is pending |
| WorkingScript.AttachListeners | src/content/working.js:91-94 | the deferred callback adds both listeners whether or not a menu is present |
| WorkingScript.HandleOutsideClick | src/content/working.js:108-113 | the menu is removed iff one exists and the target is outside it; that removal detaches both listeners and keeps the pending attachments; otherwise nothing changes |
| WorkingScript.HandleEscapeKey | src/content/working.js:116-120 | Escape hides; other keys have no effect |
| WorkingScript.Step | src/content/working.js:123-143 | Shift+right-click changes nothing; another right-click leaves exactly the new menu; scroll, resize and item clicks leave no menu |
| WorkingScript.StepPreservesInvariant | src/content/working.js:68-143 | each event keeps "at most one menu, both listeners or neither, and an open menu with no pending attachment has both listeners" |
| WorkingScript.RunPreservesInvariant | src/content/working.js:68-143 | any event sequence keeps that invariant |
| WorkingScript.AtMostOneMenu | src/content/working.js:68-72 | from the page's start, at most one `#customclick-menu` ever exists |
| WorkingScript.ShiftRightClickPassesThrough | src/content/working.js:126-129 | Shift+right-click leaves the state unchanged |
| WorkingScript.ClosingEvents | src/content/working.js:80-85 | with listeners attached, an outside click, Escape, an item click, scroll or resize removes the menu and both listeners |
| WorkingScript.LateAttachLeaks | src/content/working.js:91-104 | right-click, scroll, then the deferred attachment: no menu, yet both listeners attached |
| WorkingScript.NothingClosesBeforeTick | src/content/working.js:68-94 | a menu opened with no stray listener has no listener and one more pending attachment, so every document click and key leaves it unchanged until the next deferred attachment runs, which is its own only when none was pending before |
| WorkingScript.ClicksAndKeysIgnoredWithoutListeners | src/content/working.js:80-94 | with no listener attached, any run of document clicks and keys changes nothing |
| WorkingScript.StaleAttachClosesEarly | src/content/working.js:68-113 | right-click, hide before the attachment, right-click again: the earlier attachment attaches the listeners and an outside click closes the new menu while its own attachment is still pending |
| WorkingScript.LeakedListenersCloseNextMenu | src/content/working.js:91-113 | after the leak, the next menu is closed by an outside click while its own attachment is still pending |

## Left out

- Theme detection through `matchMedia`, DOM `focus()` calls, `innerHTML` markup, and the colours, fonts and sizes set by CSS and inline styles: presentation only. The one style that can change behaviour, `pointer-events`, is covered by the `HybridInit.ReactOwnEvent` line below.
- Console and `performance.now()` logging in `init`, and the `return true/false` of the contextmenu listener: neither affects behaviour.
- React effect scheduling. In the shipped React mode, the focus reset on mount and the container's click-outside listener (`hybrid.tsx:56-62`, `:102-114`) are taken to be in place as soon as the menu is shown, and keys are taken to reach the menu, which the focus effect gives DOM focus. The component container's own effects (`components/MenuContainer.tsx:47-53`, `:103-115`) are not modelled, since neither manager in `hybrid.tsx` renders that component; its key and click handlers are transitions on an explicit state.
- DOM event propagation. A keydown on a focused item reaches the container's handler directly and again by bubbling; the model treats each handler call on its own (see the double-handling note under "Behaviour of the code worth knowing").
- Item actions are opaque callbacks. An activation is reported as the item value itself. The vanilla menus' action names only feed a log line.
- `ReactMenuManager.createContainer` and React root creation: DOM set-up that reuses an existing container. It also gives the full-viewport root `pointer-events: none` (`hybrid.tsx:464`); what that means for clicks is covered by the next line.
- HybridInit.ReactOwnEvent: assumes that clicks on the open React menu reach the menu and its items. The root's `pointer-events: none` (`hybrid.tsx:464`) is inherited by the menu, and the menu's inline style (`hybrid.tsx:133-138`) does not reset it. The model assumes the stylesheet `styles.css` (imported at `hybrid.tsx:3`) undoes it; that stylesheet is not part of this model. If it did not, a click on the menu would fall through to the page, and the container's document click-outside listener would close the menu without running any item. That would replace the `DocumentClick(true)` case (menu stays open) and the `ItemClick` case.
- Navigation.StartsWithLetter: case is folded for ASCII letters only. JavaScript's `toLowerCase` also maps a few non-ASCII characters (for example the Kelvin sign) to ASCII letters, and a caption starting with one of them would match in the TypeScript; likewise "İ" lower-cases to "i" followed by a combining dot, so it matches "i" there but not here.
- Navigation.Typeahead: inherits the ASCII-only case folding of `Navigation.StartsWithLetter`.
- Navigation.Typeahead: requires an index of −1 or more (not NaN) when there are two or more items. The handlers only ever produce NaN, −1 or an index in [0, n), and the typeahead is left undefined for NaN, where the TypeScript reads `undefined.label` and throws. Other negative indices are excluded too, although some of them (a multiple of −n after adding one, which JavaScript's `%` turns into −0) read a real item.
- Pixel coordinates are integers. The source only adds, subtracts and compares them.
- `MENU_DIMENSIONS.PADDING = 8` in the shared constants is unused by the clamp, which hard-codes 10.
- The options page, popup, background script, the placeholder `content/index.tsx`, the separator component and the build configuration are not part of this model: they hold no menu logic.

=== FILE: common.dfy ===
/** Small value types shared by the rest of the menu-overlay model. */
module Common {

  /** A value that may be absent: JavaScript's `undefined`/`null` for an optional field. */
  datatype Option<+T> = None | Some(value: T) {

    /** The wrapped value, or `default` when absent (a destructuring default). */
    function GetOr(default: T): T {
      match this
      case Some(v) => v
      case None => default
    }
  }

  function Max(a: int, b: int): (r: int)
    ensures r >= a && r >= b
    ensures r == a || r == b
  {
    if a >= b then a else b
  }
}

=== FILE: geometry.dfy ===
/**
  The edge clamp applied to the requested top-left corner of the menu panel
  (`adjustMenuPosition`, written out twice with the same body in
  src/content/components/MenuContainer.tsx and src/content/hybrid.tsx).

  The browser's `window.innerWidth/innerHeight/scrollX/scrollY` become the
  `Viewport` parameter. Coordinates are integers: the TypeScript only adds,
  subtracts and compares them.
*/
module Geometry {
  import opened Common

  /** Hard-coded panel size and padding of the clamp (not the shared constants file). */
  const MenuWidth: int := 320
  const MenuHeight: int := 200
  const EdgePadding: int := 10

  datatype Point = Point(x: int, y: int)

  datatype Viewport = Viewport(width: int, height: int, scrollX: int, scrollY: int)

  /**
    One axis of the clamp. `p` is the requested coordinate, `extent` the
    viewport size on that axis, `scroll` the scroll offset and `size` the
    panel size. The far edge (right/bottom) is handled first, then the near
    edge (left/top), which therefore wins when both apply.
  */
  function ClampAxis(p: int, extent: int, scroll: int, size: int): (r: int)
    // the near edge always wins
    ensures r >= scroll + EdgePadding
    // a request that already fits is left alone
    ensures p + size <= extent + scroll && p >= scroll + EdgePadding ==> r == p
    // a request that overflows the far edge is pulled back, but never past the near edge
    ensures p + size > extent + scroll ==> r == Max(extent + scroll - size - EdgePadding, scroll + EdgePadding)
    // a request before the near edge (and not overflowing) is pushed to the near edge
    ensures p + size <= extent + scroll && p < scroll + EdgePadding ==> r == scroll + EdgePadding
  {
    var afterFar := if p + size > extent + scroll then extent + scroll - size - EdgePadding else p;
    if afterFar < scroll + EdgePadding then scroll + EdgePadding else afterFar
  }

  /** Whether a request already lies inside the region the clamp leaves untouched. */
  predicate Fits(p: Point, vp: Viewport) {
    && vp.scrollX + EdgePadding <= p.x && p.x + MenuWidth <= vp.width + vp.scrollX
    && vp.scrollY + EdgePadding <= p.y && p.y + MenuHeight <= vp.height + vp.scrollY
  }

  /** `adjustMenuPosition`: right/bottom clamps first, then left/top. */
  function AdjustMenuPosition(p: Point, vp: Viewport): (r: Point)
    ensures r.x >= vp.scrollX + EdgePadding && r.y >= vp.scrollY + EdgePadding
    ensures vp.scrollX + EdgePadding <= p.x && p.x + MenuWidth <= vp.width + vp.scrollX ==> r.x == p.x
    ensures vp.scrollY + EdgePadding <= p.y && p.y + MenuHeight <= vp.height + vp.scrollY ==> r.y == p.y
    ensures Fits(p, vp) ==> r == p
    ensures p.x + MenuWidth > vp.width + vp.scrollX ==>
              r.x == Max(vp.width + vp.scrollX - MenuWidth - EdgePadding, vp.scrollX + EdgePadding)
    ensures p.y + MenuHeight > vp.height + vp.scrollY ==>
              r.y == Max(vp.height + vp.scrollY - MenuHeight - EdgePadding, vp.scrollY + EdgePadding)
    ensures p.x + MenuWidth <= vp.width + vp.scrollX && p.x < vp.scrollX + EdgePadding ==>
              r.x == vp.scrollX + EdgePadding
    ensures p.y + MenuHeight <= vp.height + vp.scrollY && p.y < vp.scrollY + EdgePadding ==>
              r.y == vp.scrollY + EdgePadding
  {
    Point(ClampAxis(p.x, vp.width, vp.scrollX, MenuWidth),
          ClampAxis(p.y, vp.height, vp.scrollY, MenuHeight))
  }

  /** Re-clamping a clamped position changes nothing. */
  lemma ClampAxisIdempotent(p: int, extent: int, scroll: int, size: int)
    ensures ClampAxis(ClampAxis(p, extent, scroll, size), extent, scroll, size)
            == ClampAxis(p, extent, scroll, size)
  {
    var r := ClampAxis(p, extent, scroll, size);
    if p + size > extent + scroll {
      if extent + scroll - size - EdgePadding >= scroll + EdgePadding {
        assert r + size <= extent + scroll;
      }
    } else if p < scroll + EdgePadding {
      assert r == scroll + EdgePadding;
      if r + size > extent + scroll {
        assert extent + scroll - size - EdgePadding < scroll;
      }
    }
  }

  lemma AdjustIdempotent(p: Point, vp: Viewport)
    ensures AdjustMenuPosition(AdjustMenuPosition(p, vp), vp) == AdjustMenuPosition(p, vp)
  {
    ClampAxisIdempotent(p.x, vp.width, vp.scrollX, MenuWidth);
    ClampAxisIdempotent(p.y, vp.height, vp.scrollY, MenuHeight);
  }

  /**
    When the viewport is at least panel-plus-padding wide (tall), the panel's
    far edge ends inside the scrolled viewport. No padding is kept on the far
    side: a request that just fits is not moved.
  */
  lemma AdjustContained(p: Point, vp: Viewport)
    ensures vp.width >= MenuWidth + EdgePadding ==>
              AdjustMenuPosition(p, vp).x + MenuWidth <= vp.width + vp.scrollX
    ensures vp.height >= MenuHeight + EdgePadding ==>
              AdjustMenuPosition(p, vp).y + MenuHeight <= vp.height + vp.scrollY
  {
  }

  /**
    On a viewport narrower than panel-plus-padding the left clamp, applied
    last, always wins: the panel sits at the left edge whatever was requested.
  */
  lemma NarrowViewportPinsLeft(p: Point, vp: Viewport)
    requires vp.width < MenuWidth + EdgePadding
    ensures AdjustMenuPosition(p, vp).x == vp.scrollX + EdgePadding
  {
  }

  lemma ShortViewportPinsTop(p: Point, vp: Viewport)
    requires vp.height < MenuHeight + EdgePadding
    ensures AdjustMenuPosition(p, vp).y == vp.scrollY + EdgePadding
  {
  }

  /**
    The clamp adds the scroll offset, but callers pass viewport-relative
    pointer coordinates and place the panel with fixed positioning. Once the
    page is scrolled right by at least a viewport width, the panel's left
    edge lands beyond the visible area, wherever the pointer was.
  */
  lemma ScrolledPageMovesMenuOffscreen(p: Point, vp: Viewport)
    requires vp.scrollX >= vp.width
    ensures AdjustMenuPosition(p, vp).x > vp.width
  {
  }

  /** Right-click at (1900, 50) on an unscrolled 1920x1080 viewport. */
  lemma RightEdgeScenario()
    ensures AdjustMenuPosition(Point(1900, 50), Viewport(1920, 1080, 0, 0)) == Point(1590, 50)
  {
  }
}

=== FILE: hybrid_init.dfy ===
/**
  `init` of src/content/hybrid.tsx: the manager chosen by `MENU_MODE` and
  the page-level handlers that route right-click, scroll and resize to it.
*/
module HybridInit {
  import opened Common
  import opened Geometry
  import opened Lifecycle
  import opened MenuModel
  import opened Navigation
  import opened HybridMenu
  import VanillaManager
  import ReactManager
  import MenuItem

  datatype MenuMode = VanillaMode | ReactMode

  /** `MENU_MODE` as shipped. */
  const SelectedMode: MenuMode := ReactMode

  /**
    The React manager is paired with the focused index of the menu it
    renders (the inline container's `focusedIndex` state).
  */
  datatype Manager = Vanilla(v: VanillaManager.State) | React(r: ReactManager.State, focus: NavIndex)

  /**
    `getMenuSections`: the menu the React manager renders. Every item's
    action ends by calling `onClose`; Paste is disabled.
  */
  const ShippedSections: seq<Section> := [
    Section("search-actions", [Item("search", "Search", false), Item("translate", "Translate", false)]),
    Section("edit-actions", [Item("copy", "Copy", false), Item("paste", "Paste", true)]),
    Section("custom-actions", [Item("ai-assist", "AI Assistant", false), Item("custom-action", "Custom Action", false)])
  ]

  /** The keyboard-navigable entries of the shipped menu. */
  const ShippedItems: seq<Item> := FocusableItems(ShippedSections)

  /** Five entries are navigable: every item but Paste, in display order. */
  lemma ShippedItemsValue()
    ensures ShippedItems == [Item("search", "Search", false), Item("translate", "Translate", false),
                             Item("copy", "Copy", false), Item("ai-assist", "AI Assistant", false),
                             Item("custom-action", "Custom Action", false)]
    ensures |ShippedItems| == 5
  {
    var s0, s1, s2 := ShippedSections[0], ShippedSections[1], ShippedSections[2];
    assert ShippedSections == [s0] + [s1] + [s2];
    FlattenAppend([s0] + [s1], [s2]);
    FlattenAppend([s0], [s1]);
    assert Flatten([s0]) == s0.items by { assert [s0][1..] == []; }
    assert Flatten([s1]) == s1.items by { assert [s1][1..] == []; }
    assert Flatten([s2]) == s2.items by { assert [s2][1..] == []; }
    FocusableAppend(s0.items + s1.items, s2.items);
    FocusableAppend(s0.items, s1.items);
    assert Focusable(s0.items) == s0.items by { FocusableExtremes(s0.items); }
    assert Focusable(s2.items) == s2.items by { FocusableExtremes(s2.items); }
    assert Focusable(s1.items) == [s1.items[0]] by {
      assert s1.items[1..] == [s1.items[1]];
      assert [s1.items[1]][1..] == [];
    }
  }

  /** `initializeMenuManager()`. */
  function InitialManager(mode: MenuMode): (m: Manager)
    ensures m.Vanilla? <==> mode == VanillaMode
    ensures m.Vanilla? ==> m.v.currentMenu.None? && m.v.listeners == {}
    ensures m.React? ==> !m.r.visible
  {
    match mode
    case VanillaMode => Vanilla(VanillaManager.Initial)
    case ReactMode => React(ReactManager.Initial, Index(0))
  }

  /**
    `menuManager.show(x, y)`. A React menu that was hidden is mounted afresh,
    so its focused index starts at 0 (the initial state, which the focus
    effect sets again); one already visible keeps its index.
  */
  function ShowOn(m: Manager, x: int, y: int): (s: Manager)
    ensures IsOpen(s) && (s.Vanilla? <==> m.Vanilla?)
    ensures m.Vanilla? ==> s.v == VanillaManager.Show(m.v, x, y)
    ensures m.React? ==> s.r == ReactManager.Show(m.r, x, y)
    // a remounted menu starts at the first entry; one left mounted keeps its focus
    ensures m.React? && !m.r.visible ==> s.focus == Index(0)
    ensures m.React? && m.r.visible ==> s.focus == m.focus
  {
    match m
    case Vanilla(v) => Vanilla(VanillaManager.Show(v, x, y))
    case React(r, f) => React(ReactManager.Show(r, x, y), if r.visible then f else Index(0))
  }

  /** `menuManager.hide()`: closes the menu in either mode; the React focus is left as it was. */
  function HideOn(m: Manager): (s: Manager)
    ensures !IsOpen(s) && (s.Vanilla? <==> m.Vanilla?)
    ensures m.Vanilla? ==> s.v == VanillaManager.Hide(m.v)
    ensures m.React? ==> s.r == ReactManager.Hide(m.r) && s.focus == m.focus
  {
    match m
    case Vanilla(v) => Vanilla(VanillaManager.Hide(v))
    case React(r, f) => React(ReactManager.Hide(r), f)
  }

  /** The menu is on screen. */
  predicate IsOpen(m: Manager) {
    match m
    case Vanilla(v) => v.currentMenu.Some?
    case React(r, _) => r.visible
  }

  /**
    An event reaching the rendered React menu, which handles it through
    `onClose` (`this.hide()`): a click outside it runs the container's
    document listener; a click on an item runs that item's action; a key
    goes to the focused container's `handleKeyDown`, where Escape closes and
    an activated item's action closes. Nothing is rendered while hidden.
  */
  function ReactOwnEvent(r: ReactManager.State, f: NavIndex, e: PageEvent): (m': Manager)
    requires !e.ContextMenu? && !e.Scroll? && !e.Resize?
    ensures m'.React? && m'.r.position == r.position
    ensures !r.visible ==> m' == React(r, f)
    ensures r.visible && (e == DocumentClick(false) || e.ItemClick?) ==> !IsOpen(m')
    ensures r.visible && e.KeyDown? ==> m'.focus == HybridKeyDown(ShippedItems, f, e.key).focus
    ensures r.visible && e.KeyDown? ==>
              (IsOpen(m') <==> e.key != "Escape" && !(MenuItem.IsActivationKey(e.key) && InRange(f, |ShippedItems|)))
    ensures e == DocumentClick(true) || e.Tick? ==> m' == React(r, f)
  {
    if !r.visible then React(r, f)
    else match e
      case DocumentClick(inMenu) => if inMenu then React(r, f) else React(ReactManager.Hide(r), f)
      case ItemClick => React(ReactManager.Hide(r), f)
      case KeyDown(key) =>
        var o := HybridKeyDown(ShippedItems, f, key);
        if o.close || o.activate.Some? then React(ReactManager.Hide(r), o.focus) else React(r, o.focus)
      case Tick => React(r, f)
  }

  /**
    One page event. Right-click follows the contextmenu rule, scroll and
    resize hide; every other event goes to the vanilla manager's own
    listeners and item handlers, or to the rendered React menu.
  */
  function Step(m: Manager, e: PageEvent): (m': Manager)
    ensures e.ContextMenu? && e.e.shiftKey ==> m' == m
    ensures e.ContextMenu? && !e.e.shiftKey ==> IsOpen(m')
    ensures e.Scroll? || e.Resize? ==> !IsOpen(m')
    ensures IsOpen(m) && (e == DocumentClick(false) || e == KeyDown("Escape")) && m.React? ==> !IsOpen(m')
    ensures m'.Vanilla? <==> m.Vanilla?
  {
    match e
    case ContextMenu(me) =>
      if ShowAt(me.clientX, me.clientY) in ContextMenuCalls(me) then ShowOn(m, me.clientX, me.clientY) else m
    case Scroll => HideOn(m)
    case Resize => HideOn(m)
    case _ =>
      match m
      case Vanilla(v) => Vanilla(VanillaManager.OnOwnEvent(v, e))
      case React(r, f) => ReactOwnEvent(r, f, e)
  }

  function Run(m: Manager, events: seq<PageEvent>): Manager
    decreases |events|
  {
    if events == [] then m else Run(Step(m, events[0]), events[1..])
  }

  /**
    The vanilla manager keeps its listener invariant; an open React menu's
    focused index names an entry of the shipped menu.
  */
  ghost predicate Invariant(m: Manager) {
    match m
    case Vanilla(v) => VanillaManager.Invariant(v)
    case React(r, f) => r.visible ==> InRange(f, |ShippedItems|)
  }

  lemma InitialInvariant(mode: MenuMode)
    ensures Invariant(InitialManager(mode))
  {
  }

  /** A right-click without Shift shows the menu at the pointer's client coordinates. */
  lemma RightClickShowsAtPointer(m: Manager, e: MouseEvent)
    requires !e.shiftKey
    ensures var m' := Step(m, ContextMenu(e));
            && (m'.Vanilla? ==> m'.v.currentMenu == Some(Point(e.clientX, e.clientY)))
            && (m'.React? ==> m'.r.position == Point(e.clientX, e.clientY))
  {
  }

  /**
    In React mode the menu is drawn at the clamp of the raw client
    coordinates, which the clamp treats as page coordinates.
  */
  lemma ReactMenuDrawnAtClampedPointer(r: ReactManager.State, f: NavIndex, e: MouseEvent, vp: Viewport)
    requires !e.shiftKey
    ensures var m' := Step(React(r, f), ContextMenu(e));
            m'.React? && ReactManager.RenderedAt(m'.r, vp) == Some(AdjustMenuPosition(Point(e.clientX, e.clientY), vp))
  {
  }

  /** One event keeps the invariant in either mode. */
  lemma StepPreservesInvariant(m: Manager, e: PageEvent)
    requires Invariant(m)
    ensures Invariant(Step(m, e))
  {
    match m {
      case Vanilla(v) =>
        match e {
          case ContextMenu(me) => VanillaManager.ShowPreservesInvariant(v, me.clientX, me.clientY);
          case Scroll => VanillaManager.HidePreservesInvariant(v);
          case Resize => VanillaManager.HidePreservesInvariant(v);
          case _ => VanillaManager.OwnEventPreservesInvariant(v, e);
        }
      case React(r, f) =>
    }
  }

  /** Every event sequence keeps the invariant. */
  lemma {:induction false} RunPreservesInvariant(m: Manager, events: seq<PageEvent>)
    requires Invariant(m)
    ensures Invariant(Run(m, events)) && (Run(m, events).Vanilla? <==> m.Vanilla?)
    decreases |events|
  {
    if events != [] {
      StepPreservesInvariant(m, events[0]);
      RunPreservesInvariant(Step(m, events[0]), events[1..]);
    }
  }

  /**
    An open React menu closes on a click outside it, a click on an item,
    Escape, Enter or Space (which activate the focused item, whose action
    closes), scroll and resize.
  */
  lemma ReactClosingEvents(r: ReactManager.State, f: NavIndex, e: PageEvent)
    requires r.visible && Invariant(React(r, f))
    requires || e == DocumentClick(false) || e == ItemClick || e == Scroll || e == Resize
             || e == KeyDown("Escape") || e == KeyDown("Enter") || e == KeyDown(" ")
    ensures !IsOpen(Step(React(r, f), e))
  {
  }

  /** Arrow keys, Home and End move the focus within the shipped menu and leave it open. */
  lemma ReactNavigationKeepsMenuOpen(r: ReactManager.State, f: NavIndex, key: string)
    requires r.visible && Invariant(React(r, f))
    requires key == "ArrowDown" || key == "ArrowUp" || key == "Home" || key == "End"
    ensures var m' := Step(React(r, f), KeyDown(key));
            IsOpen(m') && InRange(m'.focus, |ShippedItems|) && m'.r == r
  {
    ShippedItemsValue();
  }

  /**
    In the mode as shipped, whatever happened before, an open menu is
    closed by Enter: the focused index always names an enabled item.
  */
  lemma ShippedMenuEnterCloses(events: seq<PageEvent>)
    requires IsOpen(Run(InitialManager(SelectedMode), events))
    ensures !IsOpen(Step(Run(InitialManager(SelectedMode), events), KeyDown("Enter")))
  {
    InitialInvariant(SelectedMode);
    RunPreservesInvariant(InitialManager(SelectedMode), events);
  }

  /**
    In the mode as shipped, a closed menu reopened by a right-click starts
    at the first entry, whatever happened before.
  */
  lemma ShippedMenuReopensAtFirstEntry(events: seq<PageEvent>, e: MouseEvent)
    requires !e.shiftKey && !IsOpen(Run(InitialManager(SelectedMode), events))
    ensures var m := Step(Run(InitialManager(SelectedMode), events), ContextMenu(e));
            m.React? && IsOpen(m) && m.focus == Index(0)
  {
    InitialInvariant(SelectedMode);
    RunPreservesInvariant(InitialManager(SelectedMode), events);
  }

  /**
    In the mode as shipped, Enter closes an open menu, and the next
    right-click reopens it at the first entry.
  */
  lemma ShippedEnterThenReopen(events: seq<PageEvent>, e: MouseEvent)
    requires !e.shiftKey && IsOpen(Run(InitialManager(SelectedMode), events))
    ensures var closed := Step(Run(InitialManager(SelectedMode), events), KeyDown("Enter"));
            && !IsOpen(closed)
            && var m := Step(closed, ContextMenu(e));
               m.React? && IsOpen(m) && m.focus == Index(0)
  {
    ShippedMenuEnterCloses(events);
    InitialInvariant(SelectedMode);
    RunPreservesInvariant(InitialManager(SelectedMode), events);
  }

  /**
    An open vanilla menu whose listeners are attached closes on a click
    outside it, on Escape, on an item click, on scroll and on resize.
  */
  lemma VanillaClosingEvents(v: VanillaManager.State, e: PageEvent)
    requires v.currentMenu.Some? && VanillaManager.Invariant(v) && v.pendingAttach == 0
    requires e == DocumentClick(false) || e == KeyDown("Escape") || e == ItemClick || e == Scroll || e == Resize
    ensures !IsOpen(Step(Vanilla(v), e)) && Step(Vanilla(v), e).v.listeners == {}
  {
  }

  /** Other keys and clicks inside the menu leave an open vanilla menu as it is. */
  lemma VanillaIgnoredEvents(v: VanillaManager.State, key: string)
    requires key != "Escape"
    ensures Step(Vanilla(v), KeyDown(key)) == Vanilla(v)
    ensures Step(Vanilla(v), DocumentClick(true)) == Vanilla(v)
  {
  }
}

=== FILE: hybrid_menu.dfy ===
/**
  The React container written inline in src/content/hybrid.tsx. Its keydown
  handler has no typeahead; Enter and Space activate the focused entry of
  the focusable list itself. Its items get a click handler only when enabled.
*/
module HybridMenu {
  import opened Common
  import opened MenuModel
  import opened Navigation
  import opened KeyEffects
  import MenuItem

  /**
    The inline `handleKeyDown`: the shared navigation keys, then Enter/Space,
    which prevent the default and call `focusableItems[focusedIndex].onClick()`
    only when that entry exists. Every other key, letters included, does nothing.
  */
  function HybridKeyDown(items: seq<Item>, focus: NavIndex, key: string): (o: KeyOutcome)
    ensures o.activate.Some? <==> MenuItem.IsActivationKey(key) && InRange(focus, |items|)
    ensures o.activate.Some? ==> o.activate.value == items[focus.i] && !o.close
    ensures o.preventDefault <==> IsNavigationKey(key) || MenuItem.IsActivationKey(key)
    ensures o.close <==> key == "Escape"
    ensures key == "ArrowDown" ==> o.focus == ArrowDown(focus, |items|)
    ensures key == "ArrowUp" ==> o.focus == ArrowUp(focus, |items|)
    ensures key == "Home" ==> o.focus == Index(0)
    ensures key == "End" ==> o.focus == Index(|items| - 1)
    ensures |items| > 0 && InRange(focus, |items|) ==> InRange(o.focus, |items|)
    ensures !IsNavigationKey(key) ==> o.focus == focus
  {
    if IsNavigationKey(key) then NavigationKeyDown(|items|, focus, key)
    else if MenuItem.IsActivationKey(key) then
      KeyOutcome(focus, true, false, if InRange(focus, |items|) then Some(items[focus.i]) else None)
    else KeyOutcome(focus, false, false, None)
  }

  /** `onClick={item.disabled ? undefined : item.onClick}`: the handler a click reaches, if any. */
  function ClickHandler(item: Item): (h: Option<Item>)
    ensures h.Some? <==> !item.disabled
    ensures h.Some? ==> h.value == item
  {
    if item.disabled then None else Some(item)
  }

  /**
    Both variants guard clicks on disabled items alike: the inline variant
    attaches no handler exactly when the component's guard would swallow
    the click.
  */
  lemma ClickGuardsAgree(item: Item, focused: Option<bool>, h: bool)
    ensures ClickHandler(item).Some?
            <==> MenuItem.OnClick in MenuItem.HandleClick(MenuItem.Props(Some(item.disabled), focused, h))
  {
  }

  /** Letters never move focus here, unlike the component container. */
  lemma NoTypeahead(items: seq<Item>, focus: NavIndex, key: string)
    requires IsTypeaheadKey(key)
    ensures HybridKeyDown(items, focus, key) == KeyOutcome(focus, false, false, None)
  {
  }

  /** Enter on entry 2 of 4 enabled entries activates exactly that entry, once. */
  lemma EnterActivatesFocusedExample()
    ensures var items := [Item("a", "A", false), Item("b", "B", false), Item("c", "C", false), Item("d", "D", false)];
            HybridKeyDown(items, Index(2), "Enter") == KeyOutcome(Index(2), true, false, Some(items[2]))
  {
  }
}

=== FILE: lifecycle.dfy ===
/**
  Pieces shared by both open/close state machines (the `VanillaMenuManager`
  class and `init` in src/content/hybrid.tsx, and src/content/working.js):
  the page events they react to, the document listeners they attach, and the
  right-click rule.
*/
module Lifecycle {

  /** The two document listeners an open menu attaches; attaching one twice has no effect. */
  datatype Listener = OutsideClick | EscapeKey

  const CloseListeners: set<Listener> := {OutsideClick, EscapeKey}

  /**
    Both listeners are attached together and detached together, so a state
    that keeps this has either none or both.
  */
  predicate BothOrNeither(ls: set<Listener>) {
    ls == {} || ls == CloseListeners
  }

  /** No other listener exists, so the attached set can never grow past these two. */
  lemma OnlyCloseListeners(ls: set<Listener>)
    ensures ls <= CloseListeners && ls - CloseListeners == {} && ls + CloseListeners == CloseListeners
  {
    forall l | l in ls
      ensures l in CloseListeners
    {
      match l
      case OutsideClick =>
      case EscapeKey =>
    }
  }

  /** The fields of a `contextmenu` event the handler reads. */
  datatype MouseEvent = MouseEvent(shiftKey: bool, clientX: int, clientY: int)

  /**
    Events reaching the page. `DocumentClick(inMenu)` is a click whose target
    is (or is not) inside the open menu but not on an item; `ItemClick` is a
    click on an enabled menu item (every vanilla menu item is enabled); `Tick` runs one deferred listener attachment
    (a `setTimeout(…, 0)` callback).
  */
  datatype PageEvent =
    | ContextMenu(e: MouseEvent)
    | DocumentClick(inMenu: bool)
    | ItemClick
    | KeyDown(key: string)
    | Scroll
    | Resize
    | Tick

  /** What the `contextmenu` handler does, in order. */
  datatype Call = PreventDefault | StopPropagation | ShowAt(x: int, y: int)

  /**
    The capture-phase `contextmenu` handler: with Shift held the native menu
    is let through untouched; otherwise the default is prevented, propagation
    stopped, and the custom menu shown at the raw client coordinates.
  */
  function ContextMenuCalls(e: MouseEvent): (calls: seq<Call>)
    ensures PreventDefault in calls <==> !e.shiftKey
    ensures e.shiftKey ==> calls == []
    ensures !e.shiftKey ==> |calls| == 3 && calls[0] == PreventDefault && calls[1] == StopPropagation
    ensures forall c :: c in calls && c.ShowAt? ==> c == ShowAt(e.clientX, e.clientY)
    ensures !e.shiftKey ==> calls[|calls| - 1].ShowAt?
  {
    if e.shiftKey then [] else [PreventDefault, StopPropagation, ShowAt(e.clientX, e.clientY)]
  }
}

=== FILE: menu_container.dfy ===
/**
  The component menu container (src/content/components/MenuContainer.tsx):
  its keydown handler, which adds first-letter typeahead to the shared
  navigation keys, and the render loop that hands each item its
  accessibility position, set size and focus flag. The render loop is the
  same in the inline copy in src/content/hybrid.tsx.
*/
module MenuContainer {
  import opened Common
  import opened MenuModel
  import opened Navigation
  import opened KeyEffects
  import MenuItem

  /**
    `handleKeyDown` of the component container. Escape closes, the arrows,
    Home and End move the index, a single ASCII letter runs the typeahead
    scan (without preventing the default), and nothing activates an item:
    Enter and Space are left to the item itself.
  */
  function ContainerKeyDown(items: seq<Item>, focus: NavIndex, key: string): (o: KeyOutcome)
    requires IsTypeaheadKey(key) ==> TypeaheadDefined(focus, |items|)
    ensures o.activate.None?
    ensures o.close <==> key == "Escape"
    ensures o.preventDefault <==> IsNavigationKey(key)
    ensures key == "ArrowDown" ==> o.focus == ArrowDown(focus, |items|)
    ensures key == "ArrowUp" ==> o.focus == ArrowUp(focus, |items|)
    ensures key == "Home" ==> o.focus == Index(0)
    ensures key == "End" ==> o.focus == Index(|items| - 1)
    ensures IsTypeaheadKey(key) ==> o.focus == Typeahead(items, focus, key)
    ensures |items| > 0 && InRange(focus, |items|) ==> InRange(o.focus, |items|)
    ensures !IsNavigationKey(key) && !IsTypeaheadKey(key) ==> o == KeyOutcome(focus, false, false, None)
  {
    if IsNavigationKey(key) then NavigationKeyDown(|items|, focus, key)
    else if IsTypeaheadKey(key) then KeyOutcome(Typeahead(items, focus, key), false, false, None)
    else KeyOutcome(focus, false, false, None)
  }

  /** The attributes one rendered item receives. */
  datatype ItemView = ItemView(id: string, posInSet: nat, setSize: nat, focused: bool, tabIndex: int)

  /**
    `!item.disabled && focusedIndex === focusableItems.findIndex(f => f.id === item.id)`:
    the first focusable entry with the item's id must sit at the focused index.
  */
  predicate IsFocusedIn(item: Item, focusable: seq<Item>, focus: NavIndex) {
    !item.disabled && focus == Index(FindIndex(focusable, item.id))
  }

  /**
    What the focus test means without `findIndex`: the item is enabled and
    the focus names the first entry carrying its id, or the focus is -1 and
    no entry carries it (`findIndex` misses).
  */
  lemma IsFocusedInMeaning(item: Item, focusable: seq<Item>, focus: NavIndex)
    ensures IsFocusedIn(item, focusable, focus)
            <==> && !item.disabled && focus.Index?
                 && (|| (&& 0 <= focus.i < |focusable| && focusable[focus.i].id == item.id
                         && forall j :: 0 <= j < focus.i ==> focusable[j].id != item.id)
                     || (focus.i == -1 && forall j :: 0 <= j < |focusable| ==> focusable[j].id != item.id))
  {
    var r := FindIndex(focusable, item.id);
    assert (&& focus.Index? && 0 <= focus.i < |focusable| && focusable[focus.i].id == item.id
            && forall j :: 0 <= j < focus.i ==> focusable[j].id != item.id)
           ==> r == focus.i;
  }

  /** What the render loop produces at flat position `k`, stated without the loop. */
  function ViewAt(all: seq<Item>, k: nat, focus: NavIndex): ItemView
    requires k < |all|
  {
    var focused := IsFocusedIn(all[k], Focusable(all), focus);
    ItemView(all[k].id, EnabledBefore(all, k) + 1, |Focusable(all)|, focused, MenuItem.TabIndex(Some(focused)))
  }

  lemma FlattenSplit(sections: seq<Section>, s: nat)
    requires s < |sections|
    ensures Flatten(sections[..s + 1]) == Flatten(sections[..s]) + sections[s].items
    ensures Flatten(sections) == Flatten(sections[..s]) + sections[s].items + Flatten(sections[s + 1..])
  {
    var before, here, after := sections[..s], [sections[s]], sections[s + 1..];
    SplitAt(sections, s);
    FlattenAppend(before, here);
    assert Flatten(here) == sections[s].items;
    assert Flatten(sections[..s + 1]) == Flatten(before) + sections[s].items;
    FlattenAppend(sections[..s + 1], after);
  }

  /** Cutting a sequence after position `s`, and around it. */
  lemma SplitAt<T>(xs: seq<T>, s: nat)
    requires s < |xs|
    ensures xs[..s + 1] == xs[..s] + [xs[s]]
    ensures xs == xs[..s + 1] + xs[s + 1..]
  {
  }

  /** One iteration of the render loop at flat position `k`, stated through the counter. */
  lemma RenderStep(all: seq<Item>, k: nat, focus: NavIndex)
    requires k < |all|
    ensures var focused := !all[k].disabled && focus == Index(FindIndex(Focusable(all), all[k].id));
            ViewAt(all, k, focus)
            == ItemView(all[k].id, EnabledBefore(all, k) + 1, |Focusable(all)|, focused, if focused then 0 else -1)
    ensures EnabledBefore(all, k + 1) == EnabledBefore(all, k) + (if all[k].disabled then 0 else 1)
  {
    EnabledBeforeStep(all, k);
  }

  /**
    The render pass: sections in order, items in order, a counter that
    advances on enabled items only and supplies `aria-posinset`.
  */
  method RenderItems(sections: seq<Section>, focus: NavIndex) returns (views: seq<ItemView>)
    ensures |views| == |Flatten(sections)|
    ensures forall k :: 0 <= k < |views| ==> views[k] == ViewAt(Flatten(sections), k, focus)
  {
    ghost var all := Flatten(sections);
    var focusable := Focusable(Flatten(sections));
    var itemIndex := 0;
    views := [];
    var s := 0;
    while s < |sections|
      invariant 0 <= s <= |sections|
      invariant |views| == |Flatten(sections[..s])| <= |all|
      invariant itemIndex == EnabledBefore(all, |views|)
      invariant forall k :: 0 <= k < |views| ==> views[k] == ViewAt(all, k, focus)
    {
      FlattenSplit(sections, s);
      assert forall j :: 0 <= j < |sections[s].items| ==> all[|views| + j] == sections[s].items[j];
      views, itemIndex := RenderSection(all, focusable, sections[s].items, focus, views, itemIndex);
      s := s + 1;
    }
    assert sections[..s] == sections;
  }

  /**
    The inner `section.items.map` of the render pass: appends one view per
    item of a section that occupies flat positions `|views|` onwards.
  */
  method RenderSection(ghost all: seq<Item>, focusable: seq<Item>, items: seq<Item>, focus: NavIndex,
                       views0: seq<ItemView>, itemIndex0: nat)
    returns (views: seq<ItemView>, itemIndex: nat)
    requires focusable == Focusable(all)
    requires |views0| + |items| <= |all|
    requires forall j :: 0 <= j < |items| ==> all[|views0| + j] == items[j]
    requires itemIndex0 == EnabledBefore(all, |views0|)
    requires forall k :: 0 <= k < |views0| ==> views0[k] == ViewAt(all, k, focus)
    ensures |views| == |views0| + |items|
    ensures itemIndex == EnabledBefore(all, |views|)
    ensures forall k :: 0 <= k < |views| ==> views[k] == ViewAt(all, k, focus)
  {
    views, itemIndex := views0, itemIndex0;
    var j := 0;
    while j < |items|
      invariant 0 <= j <= |items|
      invariant |views| == |views0| + j
      invariant itemIndex == EnabledBefore(all, |views|)
      invariant forall k :: 0 <= k < |views| ==> views[k] == ViewAt(all, k, focus)
    {
      var item := items[j];
      var focused := !item.disabled && focus == Index(FindIndex(focusable, item.id));
      var tab := if focused then 0 else -1;
      RenderStep(all, |views|, focus);
      ghost var before := views;
      views := views + [ItemView(item.id, itemIndex + 1, |focusable|, focused, tab)];
      forall k | 0 <= k < |views|
        ensures views[k] == ViewAt(all, k, focus)
      {
        if k < |before| {
          assert views[k] == before[k];
        }
      }
      if !item.disabled {
        itemIndex := itemIndex + 1;
      }
      j := j + 1;
    }
  }

  /**
    With distinct ids, an item is focused exactly when it is enabled and
    its position announcement is "focused index + 1".
  */
  lemma FocusedIffPosition(all: seq<Item>, k: nat, focus: NavIndex)
    requires k < |all| && UniqueIds(all)
    ensures ViewAt(all, k, focus).focused <==> !all[k].disabled && focus == Index(ViewAt(all, k, focus).posInSet - 1)
    ensures ViewAt(all, k, focus).tabIndex == (if ViewAt(all, k, focus).focused then 0 else -1)
  {
    if !all[k].disabled {
      FindIndexMatchesCounter(all, k);
    }
  }

  /** An enabled item's announced position names its own entry in the focusable list. */
  lemma PositionOfEnabled(all: seq<Item>, k: nat, focus: NavIndex)
    requires k < |all| && !all[k].disabled
    ensures 1 <= ViewAt(all, k, focus).posInSet <= ViewAt(all, k, focus).setSize
    ensures Focusable(all)[ViewAt(all, k, focus).posInSet - 1] == all[k]
  {
    EnabledPosition(all, k);
  }

  /** A disabled item announces the position of the next enabled item. */
  lemma PositionOfDisabled(all: seq<Item>, k: nat, j: nat, focus: NavIndex)
    requires k < j < |all| && !all[j].disabled
    requires forall m :: k <= m < j ==> all[m].disabled
    ensures ViewAt(all, k, focus).posInSet == ViewAt(all, j, focus).posInSet
  {
    DisabledSharesNextPosition(all, k, j);
  }

  /** With distinct ids at most one item is focused. */
  lemma AtMostOneFocused(all: seq<Item>, k1: nat, k2: nat, focus: NavIndex)
    requires k1 < k2 < |all| && UniqueIds(all)
    ensures !(ViewAt(all, k1, focus).focused && ViewAt(all, k2, focus).focused)
  {
    FocusedIffPosition(all, k1, focus);
    FocusedIffPosition(all, k2, focus);
    if !all[k1].disabled {
      EnabledPositionsIncrease(all, k1, k2);
    }
  }

  /** With distinct ids and a valid focused index, some item is focused. */
  lemma SomeItemFocused(all: seq<Item>, focus: NavIndex) returns (k: nat)
    requires UniqueIds(all) && InRange(focus, |Focusable(all)|)
    ensures k < |all| && ViewAt(all, k, focus).focused
  {
    k := FocusableSource(all, focus.i);
    FocusedIffPosition(all, k, focus);
  }

  /**
    `findIndex` finds the first id match, so when two enabled items share an
    id both are marked focused together.
  */
  lemma DuplicateIdsBothFocused()
    ensures var all := [Item("a", "Alpha", false), Item("a", "Again", false)];
            ViewAt(all, 0, Index(0)).focused && ViewAt(all, 1, Index(0)).focused
  {
    var all := [Item("a", "Alpha", false), Item("a", "Again", false)];
    assert all[..0] == [];
    assert Focusable(all) == all by { FocusableExtremes(all); }
  }

  /**
    Enter on an enabled component item: the container's handler runs first
    and leaves the focus alone, then the item prevents the default and calls
    its `onClick` once.
  */
  lemma ComponentEnterActivatesOnce(items: seq<Item>, focus: NavIndex, item: Item, focused: bool)
    requires !item.disabled
    ensures ContainerKeyDown(items, focus, "Enter") == KeyOutcome(focus, false, false, None)
    ensures MenuItem.HandleKeyDown(MenuItem.Props(Some(item.disabled), Some(focused), true), "Enter")
            == [MenuItem.ParentKeyDown, MenuItem.PreventDefault, MenuItem.OnClick]
  {
  }

  /** The typeahead example: from "Search", "c" moves to "Copy", then to "Custom Action". */
  lemma TypeaheadExample()
    ensures var items := [Item("search", "Search", false), Item("copy", "Copy", false),
                          Item("translate", "Translate", false), Item("custom", "Custom Action", false)];
            && ContainerKeyDown(items, Index(0), "c").focus == Index(1)
            && ContainerKeyDown(items, Index(1), "c").focus == Index(3)
  {
    var items := [Item("search", "Search", false), Item("copy", "Copy", false),
                  Item("translate", "Translate", false), Item("custom", "Custom Action", false)];
    assert MatchesAt(items, 0, 'c', 1);
    assert !MatchesAt(items, 1, 'c', 1) && MatchesAt(items, 1, 'c', 2);
  }

  /** One enabled and one disabled item: only the first is navigable and ArrowDown stays on it. */
  lemma DisabledExclusionExample()
    ensures var sections := [Section("s", [Item("a", "A", false), Item("b", "B", true)])];
            && FocusableItems(sections) == [Item("a", "A", false)]
            && ContainerKeyDown(FocusableItems(sections), Index(0), "ArrowDown").focus == Index(0)
  {
    var sections := [Section("s", [Item("a", "A", false), Item("b", "B", true)])];
    assert Flatten(sections) == [Item("a", "A", false), Item("b", "B", true)];
  }
}

=== FILE: menu_item.dfy ===
/**
  One rendered entry of the component menu (src/content/components/MenuItem.tsx):
  the disabled guard on click, Enter/Space activation after delegating the
  keydown to the container, and the roving `tabIndex`.

  A handler's behaviour is the ordered list of calls it makes.
*/
module MenuItem {
  import opened Common

  /** The props that steer behaviour; `disabled` and `focused` may be left out. */
  datatype Props = Props(disabled: Option<bool>, focused: Option<bool>, hasKeyDownHandler: bool)

  datatype Call = ParentKeyDown | PreventDefault | OnClick

  /** `disabled = false` when the prop is absent. */
  function IsDisabled(p: Props): bool {
    p.disabled.GetOr(false)
  }

  /** `tabIndex={focused ? 0 : -1}` with `focused = false` when the prop is absent. */
  function TabIndex(focused: Option<bool>): (r: int)
    ensures r == 0 <==> focused == Some(true)
    ensures r == 0 || r == -1
  {
    if focused.GetOr(false) then 0 else -1
  }

  /** `e.key === 'Enter' || e.key === ' '`: the keys that activate an item. */
  function IsActivationKey(key: string): (b: bool)
    // Space is the only one-character activation key, and no activation key is Escape
    ensures b && |key| == 1 ==> key[0] == ' '
    ensures b ==> key != "Escape"
  {
    key == "Enter" || key == " "
  }

  /** `handleClick`: calls `onClick` unless the item is disabled. */
  function HandleClick(p: Props): (calls: seq<Call>)
    ensures multiset(calls)[OnClick] == (if IsDisabled(p) then 0 else 1)
    ensures forall c :: c in calls ==> c == OnClick
  {
    if !IsDisabled(p) then [OnClick] else []
  }

  /**
    `handleKeyDown`: the container's handler, when passed, sees every key
    first, disabled or not; then Enter or Space on an enabled item prevents
    the default and calls `onClick`.
  */
  function HandleKeyDown(p: Props, key: string): (calls: seq<Call>)
    ensures p.hasKeyDownHandler <==> |calls| > 0 && calls[0] == ParentKeyDown
    ensures multiset(calls)[ParentKeyDown] == (if p.hasKeyDownHandler then 1 else 0)
    ensures multiset(calls)[OnClick] == (if IsActivationKey(key) && !IsDisabled(p) then 1 else 0)
    ensures multiset(calls)[PreventDefault] == multiset(calls)[OnClick]
    ensures OnClick in calls ==> |calls| >= 2 && calls[|calls| - 2] == PreventDefault && calls[|calls| - 1] == OnClick
  {
    var delegated := if p.hasKeyDownHandler then [ParentKeyDown] else [];
    if IsActivationKey(key) && !IsDisabled(p) then delegated + [PreventDefault, OnClick] else delegated
  }

  /** Leaving `disabled` or `focused` out behaves exactly like passing `false`. */
  lemma AbsentPropsMeanFalse(focused: Option<bool>, h: bool, key: string)
    ensures HandleClick(Props(None, focused, h)) == HandleClick(Props(Some(false), focused, h))
    ensures HandleKeyDown(Props(None, focused, h), key) == HandleKeyDown(Props(Some(false), focused, h), key)
    ensures TabIndex(None) == TabIndex(Some(false)) == -1
  {
  }
}

=== FILE: menu_model.dfy ===
/**
  The menu contents as the container sees them: sections of items, the
  flattened item list (`sections.flatMap(section => section.items)`), the
  focusable list (`allItems.filter(item => !item.disabled)`), JavaScript's
  `findIndex` by id, and the accessibility position of each rendered item.
*/
module MenuModel {

  /**
    A menu entry; `caption` is the TypeScript `label` field. The click callback is opaque, so an item is identified in
    effects by the item value itself; icon and shortcut only affect markup.
  */
  datatype Item = Item(id: string, caption: string, disabled: bool)

  datatype Section = Section(id: string, items: seq<Item>)

  /**
    `sections.flatMap(section => section.items)`. A single section flattens
    to its own items; `FlattenAppend` and `FlattenMembers` give the rest.
  */
  function Flatten(sections: seq<Section>): (r: seq<Item>)
    ensures |sections| == 1 ==> r == sections[0].items
  {
    if sections == [] then []
    else sections[0].items + Flatten(sections[1..])
  }

  /**
    `allItems.filter(item => !item.disabled)`: never longer than its input,
    and as long exactly when no item is disabled.
  */
  function Focusable(items: seq<Item>): (r: seq<Item>)
    ensures |r| <= |items|
    ensures |r| == |items| <==> forall i :: 0 <= i < |items| ==> !items[i].disabled
  {
    if items == [] then []
    else if items[0].disabled then Focusable(items[1..])
    else [items[0]] + Focusable(items[1..])
  }

  /** The list the keyboard navigates: enabled items of all sections, in display order. */
  function FocusableItems(sections: seq<Section>): seq<Item> {
    Focusable(Flatten(sections))
  }

  /** Flattening loses and invents no item. */
  lemma {:induction false} FlattenMembers(sections: seq<Section>)
    ensures forall x :: x in Flatten(sections) <==> exists sec :: sec in sections && x in sec.items
  {
    if sections != [] {
      FlattenMembers(sections[1..]);
      assert forall sec :: sec in sections <==> sec == sections[0] || sec in sections[1..];
    }
  }

  /** The focusable list holds exactly the enabled items. */
  lemma {:induction false} FocusableMembers(items: seq<Item>)
    ensures forall x :: x in Focusable(items) <==> x in items && !x.disabled
  {
    if items != [] {
      FocusableMembers(items[1..]);
      assert forall x :: x in items <==> x == items[0] || x in items[1..];
    }
  }

  lemma {:induction false} FlattenAppend(a: seq<Section>, b: seq<Section>)
    ensures Flatten(a + b) == Flatten(a) + Flatten(b)
  {
    if a == [] {
      assert a + b == b;
    } else {
      assert (a + b)[1..] == a[1..] + b;
      FlattenAppend(a[1..], b);
    }
  }

  /** Filtering distributes over concatenation: the filter keeps relative order. */
  lemma {:induction false} FocusableAppend(a: seq<Item>, b: seq<Item>)
    ensures Focusable(a + b) == Focusable(a) + Focusable(b)
  {
    if a == [] {
      assert a + b == b;
    } else {
      assert (a + b)[1..] == a[1..] + b;
      FocusableAppend(a[1..], b);
    }
  }

  /** A list with no enabled item filters to nothing; an all-enabled list is kept whole. */
  lemma {:induction false} FocusableExtremes(items: seq<Item>)
    ensures (forall i :: 0 <= i < |items| ==> items[i].disabled) ==> Focusable(items) == []
    ensures (forall i :: 0 <= i < |items| ==> !items[i].disabled) ==> Focusable(items) == items
  {
    if items != [] {
      FocusableExtremes(items[1..]);
    }
  }

  /**
    JavaScript's `findIndex(x => x.id == id)`: the first position holding
    that id, or -1 when none does.
  */
  function FindIndex(items: seq<Item>, id: string): (r: int)
    ensures -1 <= r < |items|
    ensures r == -1 <==> forall j :: 0 <= j < |items| ==> items[j].id != id
    ensures r >= 0 ==> items[r].id == id && forall j :: 0 <= j < r ==> items[j].id != id
  {
    if items == [] then -1
    else if items[0].id == id then 0
    else
      var k := FindIndex(items[1..], id);
      assert forall j :: 1 <= j < |items| ==> items[j] == items[1..][j - 1];
      if k == -1 then -1 else k + 1
  }

  /** Ids are pairwise distinct, as the menu definitions intend. */
  ghost predicate UniqueIds(items: seq<Item>) {
    forall i, j :: 0 <= i < j < |items| ==> items[i].id != items[j].id
  }

  /**
    The render loop's running counter when it reaches flat position `k`: the
    number of enabled items before `k`. `aria-posinset` is this plus one.
  */
  function EnabledBefore(all: seq<Item>, k: nat): nat
    requires k <= |all|
  {
    |Focusable(all[..k])|
  }

  /** The counter before position `k` plus the item at `k`. */
  lemma EnabledBeforeStep(all: seq<Item>, k: nat)
    requires k < |all|
    ensures EnabledBefore(all, k + 1) == EnabledBefore(all, k) + (if all[k].disabled then 0 else 1)
  {
    assert all[..k + 1] == all[..k] + [all[k]];
    FocusableAppend(all[..k], [all[k]]);
  }

  /**
    An enabled item's counter value is its index in the focusable list, so
    `aria-posinset` is one plus that index and never exceeds `aria-setsize`.
  */
  lemma EnabledPosition(all: seq<Item>, k: nat)
    requires k < |all| && !all[k].disabled
    ensures EnabledBefore(all, k) < |Focusable(all)|
    ensures Focusable(all)[EnabledBefore(all, k)] == all[k]
  {
    assert all == all[..k] + ([all[k]] + all[k + 1..]);
    FocusableAppend(all[..k], [all[k]] + all[k + 1..]);
    FocusableAppend([all[k]], all[k + 1..]);
  }

  /** The counter never decreases along the list. */
  lemma {:induction false} EnabledBeforeMonotone(all: seq<Item>, i: nat, j: nat)
    requires i <= j <= |all|
    ensures EnabledBefore(all, i) <= EnabledBefore(all, j)
    decreases j - i
  {
    if i < j {
      EnabledBeforeStep(all, i);
      EnabledBeforeMonotone(all, i + 1, j);
    }
  }

  /** Enabled items receive strictly increasing positions: flat order is kept. */
  lemma EnabledPositionsIncrease(all: seq<Item>, i: nat, j: nat)
    requires i < j < |all| && !all[i].disabled
    ensures EnabledBefore(all, i) < EnabledBefore(all, j)
  {
    EnabledBeforeStep(all, i);
    EnabledBeforeMonotone(all, i + 1, j);
  }

  /**
    Every focusable entry comes from some enabled flat position whose counter
    equals its index: the focusable list is exactly the enabled items, in order.
  */
  lemma {:induction false} FocusableSource(all: seq<Item>, p: nat) returns (k: nat)
    requires p < |Focusable(all)|
    ensures k < |all| && !all[k].disabled && EnabledBefore(all, k) == p
  {
    var n := |all|;
    // the counter climbs from 0 to |Focusable(all)| in steps of at most one
    assert all[..n] == all;
    k := 0;
    while EnabledBefore(all, k + 1) <= p
      invariant 0 <= k < n
      invariant EnabledBefore(all, k) <= p
      decreases n - k
    {
      EnabledBeforeStep(all, k);
      if k + 1 == n {
        assert false;
      }
      k := k + 1;
    }
    EnabledBeforeStep(all, k);
  }

  /**
    A disabled item is rendered with the counter value of the next enabled
    item, since the counter only advances on enabled items.
  */
  lemma DisabledSharesNextPosition(all: seq<Item>, k: nat, j: nat)
    requires k < j < |all|
    requires forall m :: k <= m < j ==> all[m].disabled
    ensures EnabledBefore(all, k) == EnabledBefore(all, j)
  {
    assert all[..j] == all[..k] + all[k..j];
    FocusableAppend(all[..k], all[k..j]);
    FocusableExtremes(all[k..j]);
  }

  /** A disabled item after the last enabled one gets position setsize + 1. */
  lemma TrailingDisabledPosition(all: seq<Item>, k: nat)
    requires k < |all|
    requires forall m :: k <= m < |all| ==> all[m].disabled
    ensures EnabledBefore(all, k) == |Focusable(all)|
  {
    assert all == all[..k] + all[k..];
    FocusableAppend(all[..k], all[k..]);
    FocusableExtremes(all[k..]);
  }

  /**
    With distinct ids, looking an enabled item up by id in the focusable list
    finds the same index as the running counter.
  */
  lemma FindIndexMatchesCounter(all: seq<Item>, k: nat)
    requires k < |all| && !all[k].disabled
    requires UniqueIds(all)
    ensures FindIndex(Focusable(all), all[k].id) == EnabledBefore(all, k)
  {
    var p := EnabledBefore(all, k);
    EnabledPosition(all, k);
    var r := FindIndex(Focusable(all), all[k].id);
    assert r <= p;
    if r < p {
      NoEarlierSameId(all, k, r);
    }
  }

  /** Under distinct ids no focusable entry before an item's position shares its id. */
  lemma NoEarlierSameId(all: seq<Item>, k: nat, r: nat)
    requires k < |all| && !all[k].disabled
    requires UniqueIds(all)
    requires r < EnabledBefore(all, k)
    ensures r < |Focusable(all)| && Focusable(all)[r].id != all[k].id
  {
    EnabledPosition(all, k);
    var k' := FocusableSource(all, r);
    EnabledPosition(all, k');
    if k < k' {
      EnabledPositionsIncrease(all, k, k');
    }
    assert k' < k;
    assert all[k'].id != all[k].id;
  }
}

=== FILE: navigation.dfy ===
/**
  Index arithmetic of keyboard focus over the focusable list, shared by both
  menu containers (src/content/components/MenuContainer.tsx and the inline
  copy in src/content/hybrid.tsx).

  The focused index is a JavaScript number. The only non-integer it can
  become is NaN, produced by `% 0` when no item is enabled.
*/
module Navigation {
  import opened MenuModel
  import opened Common

  datatype NavIndex = Index(i: int) | NaN

  /**
    JavaScript's `a % n` for a list length `n`: NaN when `n` is zero, and a
    remainder that takes the sign of the dividend (Dafny's `%` does not).
  */
  function JsRem(a: int, n: nat): (r: NavIndex)
    ensures r == NaN <==> n == 0
    ensures n > 0 ==> -(n as int) < r.i < n && (a - r.i) % n == 0
    ensures n > 0 && a >= 0 ==> r.i >= 0
    ensures n > 0 && a < 0 ==> r.i <= 0
  {
    if n == 0 then NaN
    else if a >= 0 then
      RemainderCongruent(a, n, a % n, a / n);
      Index(a % n)
    else
      var m := (-a) % n;
      RemainderCongruent(a, n, -m, -((-a) / n));
      Index(-m)
  }

  /** Subtracting a remainder leaves a multiple of the divisor. */
  lemma RemainderCongruent(a: int, n: nat, r: int, q: int)
    requires n > 0 && a - r == q * n
    ensures (a - r) % n == 0
  {
    ModUnique(a - r, n, q, 0);
  }

  /** `(prev + 1) % focusableItems.length` (NaN stays NaN). */
  function ArrowDown(prev: NavIndex, n: nat): (r: NavIndex)
    ensures r.NaN? <==> prev.NaN? || n == 0
    ensures prev.Index? && prev.i >= -1 && n > 0 ==> InRange(r, n)
  {
    match prev
    case NaN => NaN
    case Index(p) => JsRem(p + 1, n)
  }

  /** `(prev - 1 + focusableItems.length) % focusableItems.length`. */
  function ArrowUp(prev: NavIndex, n: nat): (r: NavIndex)
    ensures r.NaN? <==> prev.NaN? || n == 0
    ensures prev.Index? && prev.i >= 1 - n && n > 0 ==> InRange(r, n)
  {
    match prev
    case NaN => NaN
    case Index(p) => JsRem(p - 1 + n, n)
  }

  /** `Home` moves to the first entry: valid exactly when the list is not empty, and one ArrowUp from the last. */
  function Home(n: nat): (r: NavIndex)
    ensures InRange(r, n) <==> n > 0
    ensures n > 0 ==> ArrowUp(r, n) == Index(n - 1)
  {
    Index(0)
  }

  /**
    `End` moves to `length - 1`: the entry one ArrowDown wraps from to the
    first, and -1 (not a valid index) for an empty list.
  */
  function End(n: nat): (r: NavIndex)
    ensures InRange(r, n) <==> n > 0
    ensures n > 0 ==> ArrowDown(r, n) == Index(0)
    ensures n == 0 ==> r == Index(-1)
  {
    Index(n - 1)
  }

  /** The index is a valid position in a list of `n` entries. */
  predicate InRange(f: NavIndex, n: nat) {
    f.Index? && 0 <= f.i < n
  }

  /** ArrowDown from a valid index steps forward and wraps from the last entry to the first. */
  lemma ArrowDownWraps(p: int, n: nat)
    requires 0 <= p < n
    ensures ArrowDown(Index(p), n) == Index(if p + 1 == n then 0 else p + 1)
  {
  }

  /** ArrowUp from a valid index steps back and wraps from the first entry to the last. */
  lemma ArrowUpWraps(p: int, n: nat)
    requires 0 <= p < n
    ensures ArrowUp(Index(p), n) == Index(if p == 0 then n - 1 else p - 1)
  {
    if p > 0 {
      ModUnique(p - 1 + n, n, 1, p - 1);
    }
  }

  /** Both arrows keep a valid index valid and undo each other. */
  lemma ArrowsInverse(p: int, n: nat)
    requires 0 <= p < n
    ensures InRange(ArrowDown(Index(p), n), n) && InRange(ArrowUp(Index(p), n), n)
    ensures ArrowUp(ArrowDown(Index(p), n), n) == Index(p)
    ensures ArrowDown(ArrowUp(Index(p), n), n) == Index(p)
  {
    ArrowDownWraps(p, n);
    ArrowUpWraps(p, n);
    var d := if p + 1 == n then 0 else p + 1;
    var u := if p == 0 then n - 1 else p - 1;
    ArrowUpWraps(d, n);
    ArrowDownWraps(u, n);
  }

  lemma ArrowsKeepRange(f: NavIndex, n: nat)
    ensures InRange(f, n) ==> InRange(ArrowDown(f, n), n) && InRange(ArrowUp(f, n), n)
  {
    if InRange(f, n) {
      ArrowsInverse(f.i, n);
    }
  }

  /** `k` ArrowDown presses in a row. */
  function ArrowDownTimes(f: NavIndex, n: nat, k: nat): NavIndex {
    if k == 0 then f else ArrowDown(ArrowDownTimes(f, n, k - 1), n)
  }

  lemma {:induction false} ArrowDownTimesOffset(p: int, n: nat, k: nat)
    requires 0 <= p < n
    ensures ArrowDownTimes(Index(p), n, k) == Index((p + k) % n)
  {
    if k > 0 {
      ArrowDownTimesOffset(p, n, k - 1);
      var q := (p + k - 1) % n;
      ArrowDownWraps(q, n);
      ModStep(p + k - 1, n);
    }
  }

  /** Adding one to a remainder and wrapping is the remainder of the successor. */
  lemma ModStep(a: nat, n: nat)
    requires n > 0
    ensures (if a % n + 1 == n then 0 else a % n + 1) == (a + 1) % n
  {
    var q := a / n;
    if a % n + 1 == n {
      assert a + 1 == (q + 1) * n + 0;
      ModUnique(a + 1, n, q + 1, 0);
    } else {
      assert a + 1 == q * n + (a % n + 1);
      ModUnique(a + 1, n, q, a % n + 1);
    }
  }

  /** The remainder is the unique `r` in [0, n) with `a == q * n + r`. */
  lemma ModUnique(a: int, n: nat, q: int, r: int)
    requires n > 0 && 0 <= r < n && a == q * n + r
    ensures a % n == r
  {
    var q0 := a / n;
    var d := q - q0;
    assert d * n == a % n - r;
  }

  /** Pressing ArrowDown once per entry comes back to where it started. */
  lemma ArrowDownCycle(p: int, n: nat)
    requires 0 <= p < n
    ensures ArrowDownTimes(Index(p), n, n) == Index(p)
  {
    ArrowDownTimesOffset(p, n, n);
    ModUnique(p + n, n, 1, p);
  }

  /** With no enabled item the arrows leave the index undefined and End yields -1. */
  lemma EmptyListNavigation(f: NavIndex)
    ensures ArrowDown(f, 0) == NaN && ArrowUp(f, 0) == NaN
    ensures End(0) == Index(-1)
  {
  }

  // ---- Typeahead (first-letter navigation) ----

  predicate IsAsciiLetter(c: char) {
    'a' <= c <= 'z' || 'A' <= c <= 'Z'
  }

  /** Lower-cases ASCII capitals and leaves every other character alone. */
  function LowerAscii(c: char): (r: char)
    ensures 'A' <= c <= 'Z' ==> 'a' <= r <= 'z' && r as int == c as int + 32
    ensures !('A' <= c <= 'Z') ==> r == c
  {
    if 'A' <= c <= 'Z' then (c as int + 32) as char else c
  }

  /** `e.key.length === 1 && e.key.match(/[a-zA-Z]/)`. */
  function IsTypeaheadKey(key: string): (b: bool)
    // the lower-cased key is a lower-case ASCII letter, as `startsWith` is given
    ensures b ==> |key| == 1 && 'a' <= LowerAscii(key[0]) <= 'z'
    // the named keys are never typeahead keys
    ensures b ==> key != "Escape" && key != "Enter" && key != " " && key != "Home" && key != "End"
  {
    |key| == 1 && IsAsciiLetter(key[0])
  }

  /**
    `label.toLowerCase().startsWith(letter)`: for a lower-case ASCII `letter`,
    the caption begins with that letter or with its capital.
  */
  function StartsWithLetter(caption: string, letter: char): (b: bool)
    ensures 'a' <= letter <= 'z' ==>
              (b <==> |caption| > 0 && (caption[0] == letter || caption[0] as int == letter as int - 32))
  {
    |caption| > 0 && LowerAscii(caption[0]) == letter
  }

  /** The index probed at scan offset `k`: `(currentIndex + k) % length`. */
  function Probe(n: nat, cur: int, k: nat): (r: nat)
    requires n > 0 && cur + k >= 0
    ensures r < n
    // before the end of the list the offset is added as is; past it, it wraps once
    ensures cur + k < n ==> r == cur + k
    ensures n <= cur + k < 2 * n ==> r == cur + k - n
  {
    (cur + k) % n
  }

  predicate MatchesAt(items: seq<Item>, cur: int, letter: char, k: nat)
    requires |items| > 0 && cur + k >= 0
  {
    StartsWithLetter(items[Probe(|items|, cur, k)].caption, letter)
  }

  /**
    The scan loop from offset `k` on: the first offset below the list length
    whose probed item matches, or None.
  */
  function FirstMatch(items: seq<Item>, cur: int, letter: char, k: nat): (r: Option<nat>)
    requires |items| > 0 && cur >= -1 && k >= 1
    decreases |items| - k
    ensures r.Some? ==> k <= r.value < |items| && MatchesAt(items, cur, letter, r.value)
    ensures r.Some? ==> forall j :: k <= j < r.value ==> !MatchesAt(items, cur, letter, j)
    ensures r.None? ==> forall j :: k <= j < |items| ==> !MatchesAt(items, cur, letter, j)
  {
    if k >= |items| then None
    else if MatchesAt(items, cur, letter, k) then Some(k)
    else FirstMatch(items, cur, letter, k + 1)
  }

  /**
    The scan reads `focusableItems[(current + i) % length]`; from a NaN
    index it reads `undefined`, and reading its `label` throws. The key
    handlers never produce an index below -1. The scan runs only for two or
    more items, and its first probe is `current + 1`.
  */
  predicate TypeaheadDefined(focus: NavIndex, n: nat) {
    n >= 2 ==> focus.Index? && focus.i >= -1
  }

  /**
    Typeahead: on a single ASCII letter, scan offsets 1 .. length-1 from the
    current index, wrapping, and move to the first item whose caption starts
    with that letter, ignoring case. Any other key, or no match, leaves the
    index as it was.
  */
  function Typeahead(items: seq<Item>, focus: NavIndex, key: string): (r: NavIndex)
    requires TypeaheadDefined(focus, |items|)
    ensures !IsTypeaheadKey(key) ==> r == focus
    ensures r != focus ==>
              && focus.Index? && InRange(r, |items|)
              && StartsWithLetter(items[r.i].caption, LowerAscii(key[0]))
    ensures r != focus ==>
              exists k :: 1 <= k < |items| && r.i == Probe(|items|, focus.i, k)
                          && forall j :: 1 <= j < k ==> !MatchesAt(items, focus.i, LowerAscii(key[0]), j)
    ensures IsTypeaheadKey(key) && InRange(focus, |items|) ==>
              (r == focus <==> forall j :: 1 <= j < |items| ==> !MatchesAt(items, focus.i, LowerAscii(key[0]), j))
  {
    if !IsTypeaheadKey(key) || |items| < 2 then focus
    else
      var letter := LowerAscii(key[0]);
      match FirstMatch(items, focus.i, letter, 1)
      case None => focus
      case Some(k) =>
        NeverReselects(|items|, focus.i, k);
        Index(Probe(|items|, focus.i, k))
  }

  /** A probe at a non-zero offset below the length never lands on the current index. */
  lemma NeverReselects(n: nat, cur: int, k: nat)
    requires n > 0 && cur >= -1 && 1 <= k < n
    ensures cur != Probe(n, cur, k)
  {
    if 0 <= cur < n {
      if cur + k >= n {
        ModUnique(cur + k, n, 1, cur + k - n);
      }
    }
  }
}

/**
  What one keydown does to the menu container: the new focused index, whether
  the browser default was prevented, whether `onClose` was called, and which
  item's `onClick` was called, if any.
*/
module KeyEffects {
  import opened Common
  import opened MenuModel
  import opened Navigation

  datatype KeyOutcome = KeyOutcome(focus: NavIndex, preventDefault: bool, close: bool, activate: Option<Item>)

  /** The keys both containers handle by name, with `preventDefault`. */
  predicate IsNavigationKey(key: string) {
    key == "Escape" || key == "ArrowDown" || key == "ArrowUp" || key == "Home" || key == "End"
  }

  /** The shared part of both containers' `switch (e.key)`; other keys leave the state alone. */
  function NavigationKeyDown(n: nat, focus: NavIndex, key: string): (o: KeyOutcome)
    ensures o.preventDefault <==> IsNavigationKey(key)
    ensures o.close <==> key == "Escape"
    ensures o.activate.None?
    ensures key == "ArrowDown" ==> o.focus == ArrowDown(focus, n)
    ensures key == "ArrowUp" ==> o.focus == ArrowUp(focus, n)
    ensures key == "Home" ==> o.focus == Index(0)
    ensures key == "End" ==> o.focus == Index(n - 1)
    ensures n > 0 && InRange(focus, n) ==> InRange(o.focus, n)
    ensures !IsNavigationKey(key) || key == "Escape" ==> o.focus == focus
  {
    ArrowsKeepRange(focus, n);
    if key == "Escape" then KeyOutcome(focus, true, true, None)
    else if key == "ArrowDown" then KeyOutcome(ArrowDown(focus, n), true, false, None)
    else if key == "ArrowUp" then KeyOutcome(ArrowUp(focus, n), true, false, None)
    else if key == "Home" then KeyOutcome(Home(n), true, false, None)
    else if key == "End" then KeyOutcome(End(n), true, false, None)
    else KeyOutcome(focus, false, false, None)
  }
}

=== FILE: react_manager.dfy ===
/**
  `ReactMenuManager` of src/content/hybrid.tsx: a visibility flag and the
  last requested position, handed to the React menu on every change.
*/
module ReactManager {
  import opened Common
  import opened Geometry

  datatype State = State(visible: bool, position: Point)

  /** Created hidden at the origin. */
  const Initial: State := State(false, Point(0, 0))

  /** `show(x, y)`: store the position and become visible. */
  function Show(s: State, x: int, y: int): (t: State)
    ensures t.visible && t.position == Point(x, y)
  {
    State(true, Point(x, y))
  }

  /** `hide()`: become invisible; the last position is kept. */
  function Hide(s: State): (t: State)
    ensures !t.visible && t.position == s.position
  {
    s.(visible := false)
  }

  /**
    Where the rendered menu's top-left corner lands for a given viewport:
    nowhere while hidden, otherwise the stored position after the edge clamp.
  */
  function RenderedAt(s: State, vp: Viewport): (r: Option<Point>)
    ensures r.Some? <==> s.visible
    ensures r.Some? ==> r.value.x >= vp.scrollX + EdgePadding && r.value.y >= vp.scrollY + EdgePadding
    ensures r.Some? && Fits(s.position, vp) ==> r.value == s.position
  {
    if s.visible then Some(AdjustMenuPosition(s.position, vp)) else None
  }

  /**
    Hiding twice is hiding once, a hidden menu is drawn in no viewport, and
    showing again replaces the kept position.
  */
  lemma HideThenShow(s: State, x: int, y: int)
    ensures Hide(Hide(s)) == Hide(s)
    ensures Show(Hide(s), x, y) == Show(s, x, y)
    ensures forall vp :: RenderedAt(Hide(s), vp).None?
  {
  }
}

=== FILE: vanilla_manager.dfy ===
/**
  `VanillaMenuManager` of src/content/hybrid.tsx: one `currentMenu` handle,
  two document listeners, and the deferred attachment of those listeners.
  The menu element is represented by the point it was placed at.
*/
module VanillaManager {
  import opened Common
  import opened Geometry
  import opened Lifecycle

  /**
    `pendingAttach` counts scheduled `setTimeout(…, 0)` callbacks that will
    attach both listeners when they run.
  */
  datatype State = State(currentMenu: Option<Point>, listeners: set<Listener>, pendingAttach: nat)

  const Initial: State := State(None, {}, 0)

  /** `hide()`: nothing without a menu; otherwise drop it and detach both listeners. */
  function Hide(s: State): (t: State)
    ensures s.currentMenu.None? ==> t == s
    ensures s.currentMenu.Some? ==> t.currentMenu.None? && t.listeners == {}
    ensures t.pendingAttach == s.pendingAttach
  {
    OnlyCloseListeners(s.listeners);
    if s.currentMenu.Some? then s.(currentMenu := None, listeners := s.listeners - CloseListeners) else s
  }

  /**
    `show(x, y)`: hide any open menu first, so a single menu exists, then
    place the new one at the raw coordinates and schedule the listeners.
  */
  function Show(s: State, x: int, y: int): (t: State)
    ensures t.currentMenu == Some(Point(x, y))
    ensures s.currentMenu.Some? ==> t.listeners == {}
    ensures s.currentMenu.None? ==> t.listeners == s.listeners
    ensures t.pendingAttach == s.pendingAttach + 1
  {
    var hidden := Hide(s);
    State(Some(Point(x, y)), hidden.listeners, s.pendingAttach + 1)
  }

  /** One deferred callback runs: both listeners are attached whether or not a menu is open. */
  function AttachListeners(s: State): (t: State)
    ensures s.pendingAttach == 0 ==> t == s
    ensures s.pendingAttach > 0 ==> t.listeners == CloseListeners && t.pendingAttach == s.pendingAttach - 1
    ensures t.currentMenu == s.currentMenu
  {
    OnlyCloseListeners(s.listeners);
    if s.pendingAttach == 0 then s
    else s.(listeners := s.listeners + CloseListeners, pendingAttach := s.pendingAttach - 1)
  }

  /** `handleOutsideClick`: hides only when a menu is open and the target lies outside it. */
  function HandleOutsideClick(s: State, inMenu: bool): (t: State)
    ensures t.currentMenu.None? <==> s.currentMenu.None? || !inMenu
    ensures s.currentMenu.Some? && !inMenu ==> t.listeners == {} && t.pendingAttach == s.pendingAttach
    ensures s.currentMenu.None? || inMenu ==> t == s
  {
    if s.currentMenu.Some? && !inMenu then Hide(s) else s
  }

  /** `handleEscapeKey`: Escape hides, any other key does nothing. */
  function HandleEscapeKey(s: State, key: string): (t: State)
    ensures key == "Escape" ==> t == Hide(s)
    ensures key != "Escape" ==> t == s
  {
    if key == "Escape" then Hide(s) else s
  }

  /**
    The events the manager itself listens for: document clicks and keys
    reach its handlers only while the listener is attached; an item's own
    click handler hides the menu before the click bubbles to the document.
    Right-click, scroll and resize are routed by `init`.
  */
  function OnOwnEvent(s: State, e: PageEvent): (t: State)
    requires !e.ContextMenu? && !e.Scroll? && !e.Resize?
    // a document click or key does nothing while its listener is detached
    ensures e.DocumentClick? && OutsideClick !in s.listeners ==> t == s
    ensures e.KeyDown? && EscapeKey !in s.listeners ==> t == s
    ensures e.DocumentClick? && OutsideClick in s.listeners ==> t == HandleOutsideClick(s, e.inMenu)
    ensures e.KeyDown? && EscapeKey in s.listeners ==> t == HandleEscapeKey(s, e.key)
    // an item click always closes the menu, attached listeners or not
    ensures e.ItemClick? ==> t.currentMenu.None? && t.pendingAttach == s.pendingAttach
    ensures e.Tick? ==> t == AttachListeners(s)
  {
    match e
    case DocumentClick(inMenu) =>
      if OutsideClick in s.listeners then HandleOutsideClick(s, inMenu) else s
    case ItemClick =>
      var t := Hide(s);
      if OutsideClick in t.listeners then HandleOutsideClick(t, true) else t
    case KeyDown(key) =>
      if EscapeKey in s.listeners then HandleEscapeKey(s, key) else s
    case Tick => AttachListeners(s)
  }

  /**
    The listeners are attached and detached as a pair, and once every
    deferred attachment has run an open menu has both. (The converse fails:
    see `LateAttachLeaks`.)
  */
  ghost predicate Invariant(s: State) {
    && BothOrNeither(s.listeners)
    && (s.currentMenu.Some? && s.pendingAttach == 0 ==> s.listeners == CloseListeners)
  }

  lemma InitialInvariant()
    ensures Invariant(Initial)
  {
  }

  lemma ShowPreservesInvariant(s: State, x: int, y: int)
    requires Invariant(s)
    ensures Invariant(Show(s, x, y))
  {
  }

  lemma HidePreservesInvariant(s: State)
    requires Invariant(s)
    ensures Invariant(Hide(s)) && Hide(s).currentMenu.None?
  {
  }

  lemma OwnEventPreservesInvariant(s: State, e: PageEvent)
    requires Invariant(s) && !e.ContextMenu? && !e.Scroll? && !e.Resize?
    ensures Invariant(OnOwnEvent(s, e))
  {
  }

  /**
    Hidden before the deferred attachment runs, the menu is gone but the
    attachment still adds both listeners: they stay on the document with
    no menu open.
  */
  lemma LateAttachLeaks(x: int, y: int)
    ensures AttachListeners(Hide(Show(Initial, x, y))) == State(None, CloseListeners, 0)
  {
  }

  /**
    Opened on a page with no stray listener (a fresh page, or one where
    `show` replaces an open menu and so detaches its listeners), the menu
    has no listener, so every document click and every key leaves it as it
    is, however many arrive, until the next deferred attachment runs. That
    attachment is the menu's own only when no other was pending.
  */
  lemma NothingClosesBeforeTick(s: State, x: int, y: int)
    requires s.currentMenu.Some? || s.listeners == {}
    ensures var t := Show(s, x, y);
            && t.listeners == {}
            && t.pendingAttach == s.pendingAttach + 1
            && (forall inMenu: bool :: OnOwnEvent(t, DocumentClick(inMenu)) == t)
            && (forall key: string :: OnOwnEvent(t, KeyDown(key)) == t)
  {
  }

  /**
    An earlier menu's deferred attachment, still pending when a new menu
    opens, attaches the listeners early: an outside click then closes the
    new menu while its own attachment is still pending.
  */
  lemma StaleAttachClosesEarly(x: int, y: int)
    ensures var t := Show(Hide(Show(Initial, x, y)), x, y);
            && t.listeners == {} && t.pendingAttach == 2
            && AttachListeners(t).pendingAttach == 1
            && OnOwnEvent(AttachListeners(t), DocumentClick(false)).currentMenu.None?
  {
  }

  /**
    Listeners leaked by `LateAttachLeaks` close the next menu on the first
    outside click, before that menu's own attachment has run.
  */
  lemma LeakedListenersCloseNextMenu(x: int, y: int)
    ensures var t := Show(AttachListeners(Hide(Show(Initial, x, y))), x, y);
            && t.pendingAttach == 1
            && OnOwnEvent(t, DocumentClick(false)).currentMenu.None?
            && OnOwnEvent(t, KeyDown("Escape")).currentMenu.None?
  {
  }
}

=== FILE: working_script.dfy ===
/**
  src/content/working.js: the same lifecycle as the vanilla manager, but the
  menu is found by looking up the element id `customclick-menu` in the page
  rather than through a stored handle. The page's elements with that id are
  a list in document order; the lookup returns the first.
*/
module WorkingScript {
  import opened Geometry
  import opened Lifecycle

  datatype State = State(menus: seq<Point>, listeners: set<Listener>, pendingAttach: nat)

  const Initial: State := State([], {}, 0)

  /**
    `hideMenu()`: nothing when the id lookup finds no menu; otherwise remove
    that element and detach both listeners.
  */
  function HideMenu(s: State): (t: State)
    ensures s.menus == [] ==> t == s
    ensures s.menus != [] ==> t.menus == s.menus[1..] && t.listeners == {}
    ensures t.pendingAttach == s.pendingAttach
  {
    OnlyCloseListeners(s.listeners);
    if s.menus != [] then State(s.menus[1..], s.listeners - CloseListeners, s.pendingAttach) else s
  }

  /**
    `showMenu(x, y)`: remove an existing menu, append a new one at the raw
    coordinates, and schedule the listeners for a later turn.
  */
  function ShowMenu(s: State, x: int, y: int): (t: State)
    ensures |s.menus| <= 1 ==> t.menus == [Point(x, y)]
    ensures s.menus != [] ==> t.listeners == {}
    ensures t.pendingAttach == s.pendingAttach + 1
  {
    var hidden := HideMenu(s);
    State(hidden.menus + [Point(x, y)], hidden.listeners, s.pendingAttach + 1)
  }

  /** The deferred callback: both listeners are attached whether or not a menu is present. */
  function AttachListeners(s: State): (t: State)
    ensures s.pendingAttach == 0 ==> t == s
    ensures s.pendingAttach > 0 ==> t.listeners == CloseListeners && t.pendingAttach == s.pendingAttach - 1
    ensures t.menus == s.menus
  {
    OnlyCloseListeners(s.listeners);
    if s.pendingAttach == 0 then s
    else State(s.menus, s.listeners + CloseListeners, s.pendingAttach - 1)
  }

  /** `handleOutsideClick`: hide when a menu exists and the target lies outside it. */
  function HandleOutsideClick(s: State, inMenu: bool): (t: State)
    ensures t.menus != s.menus <==> s.menus != [] && !inMenu
    ensures s.menus != [] && !inMenu ==> t.menus == s.menus[1..] && t.listeners == {} && t.pendingAttach == s.pendingAttach
    ensures s.menus == [] || inMenu ==> t == s
  {
    if s.menus != [] && !inMenu then HideMenu(s) else s
  }

  /** `handleEscapeKey`: only Escape hides. */
  function HandleEscapeKey(s: State, key: string): (t: State)
    ensures key == "Escape" ==> t == HideMenu(s)
    ensures key != "Escape" ==> t == s
  {
    if key == "Escape" then HideMenu(s) else s
  }

  /**
    One page event: the contextmenu rule, the item click handler (hide, then
    the click bubbles to the document), the two document listeners while
    attached, scroll and resize (both `hideMenu`), and the deferred attachment.
  */
  function Step(s: State, e: PageEvent): (t: State)
    ensures e.ContextMenu? && e.e.shiftKey ==> t == s
    ensures e.ContextMenu? && !e.e.shiftKey && |s.menus| <= 1 ==> t.menus == [Point(e.e.clientX, e.e.clientY)]
    ensures (e.Scroll? || e.Resize? || e.ItemClick?) && |s.menus| <= 1 ==> t.menus == []
  {
    match e
    case ContextMenu(me) =>
      if ShowAt(me.clientX, me.clientY) in ContextMenuCalls(me) then ShowMenu(s, me.clientX, me.clientY) else s
    case DocumentClick(inMenu) =>
      if OutsideClick in s.listeners then HandleOutsideClick(s, inMenu) else s
    case ItemClick =>
      var t := HideMenu(s);
      if OutsideClick in t.listeners then HandleOutsideClick(t, true) else t
    case KeyDown(key) =>
      if EscapeKey in s.listeners then HandleEscapeKey(s, key) else s
    case Scroll => HideMenu(s)
    case Resize => HideMenu(s)
    case Tick => AttachListeners(s)
  }

  function Run(s: State, events: seq<PageEvent>): State
    decreases |events|
  {
    if events == [] then s else Run(Step(s, events[0]), events[1..])
  }

  /**
    At most one menu is in the page, the listeners come and go as a pair,
    and once every deferred attachment has run an open menu has both.
  */
  ghost predicate Invariant(s: State) {
    && |s.menus| <= 1
    && BothOrNeither(s.listeners)
    && (s.menus != [] && s.pendingAttach == 0 ==> s.listeners == CloseListeners)
  }

  lemma StepPreservesInvariant(s: State, e: PageEvent)
    requires Invariant(s)
    ensures Invariant(Step(s, e))
  {
  }

  lemma {:induction false} RunPreservesInvariant(s: State, events: seq<PageEvent>)
    requires Invariant(s)
    ensures Invariant(Run(s, events))
    decreases |events|
  {
    if events != [] {
      StepPreservesInvariant(s, events[0]);
      RunPreservesInvariant(Step(s, events[0]), events[1..]);
    }
  }

  /** From the page's start, whatever happens, at most one `#customclick-menu` exists. */
  lemma AtMostOneMenu(events: seq<PageEvent>)
    ensures |Run(Initial, events).menus| <= 1
  {
    RunPreservesInvariant(Initial, events);
  }

  /** Shift+right-click changes nothing. */
  lemma ShiftRightClickPassesThrough(s: State, x: int, y: int)
    ensures Step(s, ContextMenu(MouseEvent(true, x, y))) == s
  {
  }

  /**
    An open menu whose listeners are attached closes on an outside click,
    Escape, an item click, scroll or resize, and its listeners are detached.
  */
  lemma ClosingEvents(s: State, e: PageEvent)
    requires Invariant(s) && s.menus != [] && s.pendingAttach == 0
    requires e == DocumentClick(false) || e == KeyDown("Escape") || e == ItemClick || e == Scroll || e == Resize
    ensures Step(s, e).menus == [] && Step(s, e).listeners == {}
  {
  }

  /**
    A scroll between the right-click and the deferred attachment removes the
    menu, yet the attachment still leaves both listeners on the page.
  */
  lemma LateAttachLeaks(x: int, y: int)
    ensures Run(Initial, [ContextMenu(MouseEvent(false, x, y)), Scroll, Tick]) == State([], CloseListeners, 0)
  {
    assert [ContextMenu(MouseEvent(false, x, y)), Scroll, Tick][1..] == [Scroll, Tick];
    assert [Scroll, Tick][1..] == [Tick];
  }

  /**
    Opened with no stray listener, the menu has no listener, so every
    document click and every key leaves it as it is until the next deferred
    attachment runs; that attachment is the menu's own only when no other
    was pending.
  */
  lemma NothingClosesBeforeTick(s: State, x: int, y: int)
    requires |s.menus| <= 1 && (s.menus != [] || s.listeners == {})
    ensures var t := ShowMenu(s, x, y);
            && t.listeners == {}
            && t.pendingAttach == s.pendingAttach + 1
            && (forall inMenu: bool :: Step(t, DocumentClick(inMenu)) == t)
            && (forall key: string :: Step(t, KeyDown(key)) == t)
  {
  }

  /** With no listener attached, any run of document clicks and keys changes nothing. */
  lemma {:induction false} ClicksAndKeysIgnoredWithoutListeners(t: State, events: seq<PageEvent>)
    requires t.listeners == {}
    requires forall i :: 0 <= i < |events| ==> events[i].DocumentClick? || events[i].KeyDown?
    ensures Run(t, events) == t
    decreases |events|
  {
    if events != [] {
      assert Step(t, events[0]) == t;
      ClicksAndKeysIgnoredWithoutListeners(t, events[1..]);
    }
  }

  /**
    A right-click, a scroll before the attachment, and a second right-click
    leave two attachments pending; the first one attaches the listeners, and
    an outside click then closes the new menu while its own is still pending.
  */
  lemma StaleAttachClosesEarly(x: int, y: int)
    ensures var t := ShowMenu(HideMenu(ShowMenu(Initial, x, y)), x, y);
            && t.listeners == {} && t.pendingAttach == 2
            && AttachListeners(t).pendingAttach == 1
            && Step(AttachListeners(t), DocumentClick(false)).menus == []
  {
  }

  /** After a leak, the leaked listeners close the next menu before its own attachment runs. */
  lemma LeakedListenersCloseNextMenu(x: int, y: int)
    ensures var t := ShowMenu(Run(Initial, [ContextMenu(MouseEvent(false, x, y)), Scroll, Tick]), x, y);
            t.pendingAttach == 1 && Step(t, DocumentClick(false)).menus == []
  {
    LateAttachLeaks(x, y);
  }
}
